=== FILE: README.md ===
# Rotating ToF scanner controllers, modelled in Dafny

The system drives a rotating 8x8 time-of-flight distance sensor from a
Raspberry Pi. It talks to two devices over serial links:

- a motor board, which takes a step-angle command (`"<SC with three
  decimals>\n"`) and answers `MF` when the step is done, `RF` when it aborts
  or has returned home, and `reset done`;
- a sensor head, which sends one line of 64 comma-separated readings in
  tenths of a centimetre, together with the tokens `MeF` and `measure done`.

Each reading becomes a distance in centimetres, or a missing cell where the
field does not parse. The 8x8 grid is then projected into 3-D points: column
c looks along azimuth `center - 30 + c * 60/7` degrees, and row r looks along
elevation 30, 15, …, -75 degrees.

The repository holds four variants of the controller. Each is a
Qt-timer-driven state machine, and each is modelled here as a pure function
over an immutable state.

- `good_file.py` is the accumulating scanner (`StepCapture`). START sends the
  first step. Each `MF` asks the sensor for a measurement (`MeS\n`) two
  seconds later. Each 64-field line is projected around azimuth `C * SC` and
  appended to one growing cloud. The next step follows 100 ms later, or `RM`
  goes out after the last sample, and the controller then waits for `RF`.
- `um1.py` is the three-phase scanner (`SweepMeasure`). The motor first
  sweeps S steps, each one three seconds after the previous `MF`. Then the
  sensor is told `start measure`. A sensor line with exactly 64 fields
  replaces the buffered grid and the plot; any other line is ignored.
  `measure done` sends `reset angle` to the motor. A
  `reset done` on the second motor read of a tick finishes the process.
- `test_MeS.py` is a sensor-only receiver (`GridReceiver`). A button sends
  `MeS\n`, and every 64-field line replaces the plot.
- `test_Algorism.py` is a motor-only step loop (`Stepper`). `MF` schedules
  the next step command three seconds later, and `RF` stops the loop.

Shared modules:

- `Fields` splits a line on commas, as `str.split(",")` does.
- `GridDecoder` turns a line into a grid.
- `PointProjector` projects a grid into points. It also holds the
  accumulating viewer (`Accumulate`) and the replacing viewer (`Replot`).
- `Protocol` holds the link tokens, the effects a step produces and the
  feeds a link will return.
- `Runs` folds a controller's step function over a sequence of events.

How the world outside the controller is modelled:

- **Serial links.** What a link will return is a *feed*: the sequence of
  results of successive `read_line` calls. `None` stands for a read that
  finds nothing, and an empty line also reads as `None`. Writes become
  `Send(link, msg)` effects.
- **Timers.** A `QTimer.singleShot(ms, f)` becomes a `Schedule(ms, action)`
  effect. The callback firing later is a separate `Timer` event.
- **Display and status.** Handing a grid to the 3-D viewer and the 8x8 table
  is a `Display(grid)` effect. A status-label change that carries protocol
  meaning is a `Report(notice)` effect.
- **Host numerics.** `float()`, `math.radians`, `math.sin`, `math.cos` and
  `f"{x:.3f}"` are fields of a `Host` value passed in. They are
  uninterpreted, so every property holds whatever they compute.
- **Integer parsing.** The result of `int(text)` comes in as
  `Option<int>`, where `None` means `int()` raised.
- **Runs.** A run is a sequence of events: START, a timer callback firing, a
  poll tick, or the next line arriving on a link. The sweep lemmas fix one
  particular order of these events.

Where the code does something a reader might not expect, the model follows the code:

- `good_file.py`'s START does not clear the point cloud; earlier sweeps stay
  (`StepCapture.CloudOnlyGrows`).
- No controller cancels a pending deferred command on `RF`.
  - In `good_file.py` and `test_Algorism.py` the step command checks the
    transmission flag when it fires, so it sends nothing
    (`Stepper.InactiveIsSilent`, `StepCapture.IdleRun`).
  - `good_file.py`'s deferred measurement request checks nothing, so a
    pending "MeS" still goes out on the sensor link after RF
    (`StepCapture.Fire`).
  - In `um1.py` the step command checks no flag, so it still goes out
    (`SweepMeasure.AbortKeepsPendingStep`).
- START accepts any integer sample count other than zero, negative ones
  included; no controller checks that S is positive.
- A reading of zero or below is kept as a distance by the decoder. Only the
  accumulating viewer drops it.
- The replacing viewers never move their azimuth center from 0.

## Model

| member | source | states |
|---|---|---|
| Fields.Split | um1.py:269 | `line.split(",")`: one field more than there are commas, no field contains a comma, and joining the fields with commas gives the line back |
| Fields.SplitCommaFree | test_MeS.py:166 | a line without a comma splits into itself alone |
| Fields.SplitAtFirstComma | good_file.py:261 | the text before the first comma is the first field and the rest splits independently |
| Fields.SplitJoin | test_MeS.py:166-167 | splitting the comma-join of comma-free fields returns exactly those fields |
| GridDecoder.Reading | test_MeS.py:172-176 | a field gives a distance d with d * 10 equal to float(field), or a missing cell exactly when float() fails |
| GridDecoder.Decode | test_MeS.py:166-176 | a line is a grid exactly when it has 63 commas (64 fields); cell i is then field i's reading |
| GridDecoder.DecodeJoined | um1.py:269-278 | 64 comma-free fields joined by commas decode to exactly their readings, cell i from field i alone |
| GridDecoder.DecodeJoinedRejects | um1.py:269-270 | the comma-join of any other number of comma-free fields is rejected |
| PointProjector.Keeps | good_file.py:62 | a missing cell is never kept; the replacing viewers keep every present cell, the accumulating one only positive distances |
| PointProjector.CellPoint | good_file.py:64-68 | a cell's point lies at its distance along the element's line of sight, and its height depends on the row alone |
| PointProjector.CellPointScales | good_file.py:66-68 | scaling the distance scales the point: one element's points lie on one ray from the sensor |
| PointProjector.ColumnAzimuth | test_MeS.py:50-51 | column azimuths lie within center ± 30 degrees, column 0 at center - 30 and column 7 at center + 30 |
| PointProjector.ColumnsAscend | um1.py:60-62 | neighbouring columns are 60/7 degrees apart |
| PointProjector.KeptBelow | good_file.py:59-63 | the kept cells before n, listed: each one is kept, every kept cell is listed, and they ascend |
| PointProjector.KeptPrefix | good_file.py:59-69 | the kept cells before the k-th kept cell are the first k kept cells |
| PointProjector.Project | good_file.py:50-69 | a grid of the wrong size gives no point; a 64-cell grid gives one point per kept cell, never more than 64 |
| PointProjector.ProjectKept | test_MeS.py:54-64 | a grid's points are the kept cells' points in listed order, one per kept cell |
| PointProjector.ProjectRowMajor | um1.py:66-79 | each kept cell i gives the point at position Rank(i), and each point comes from the kept cell of that rank: row-major order, nothing extra |
| PointProjector.ProjectEmpty | good_file.py:71-72 | a grid gives no point exactly when no cell is kept |
| PointProjector.ProjectStep | good_file.py:59-69 | passing cell i appends its point when it is kept and nothing otherwise |
| PointProjector.ProjectGrid | good_file.py:50-69 | the nested row and column loop computes exactly Project |
| PointProjector.Accumulate | good_file.py:50-74 | the cloud becomes the old points followed by the grid's points (missing and non-positive cells dropped); the center is unchanged and the old points remain a prefix |
| PointProjector.Replot | test_MeS.py:46-71 | a 64-cell grid's points (missing cells dropped, around azimuth 0) replace what was shown; a grid of another size leaves it as it was |
| Protocol.StepAngle | test_Algorism.py:54 | SC * S == 360 |
| Protocol.StepMessageLine | um1.py:216 | the step command is the three-decimal increment followed by the newline that ends it; when the formatted increment holds no newline, that newline is the message's only one |
| Protocol.ReadLine | um1.py:126-133 | a read takes the next line off the feed, an empty line and an exhausted feed read as nothing, a line read is never empty, and a non-empty line is read exactly as it arrived |
| Protocol.ReadLineAppend | um1.py:126-133 | lines arriving later do not change what a read returns now; they queue behind the rest |
| Stepper.StepWiring | test_Algorism.py:29-43 | an arriving line only joins the link's buffer, only the timer tick reads the link, and the button and the deferred command leave it alone |
| Stepper.SendStepIfActive | test_Algorism.py:65-70 | exactly one step command while transmission is active, nothing otherwise; the state is unchanged |
| Stepper.Start | test_Algorism.py:46-62 | a non-integer sends nothing and keeps the state; an integer S gives C = 0, SC = 360/S, active, and exactly one step command |
| Stepper.Tick | test_Algorism.py:73-98 | RF stops transmission and is not counted; MF while active counts, schedules one command at 3000 ms if steps remain and otherwise stops; anything else changes nothing |
| Stepper.RunStaysBounded | test_Algorism.py:89-98 | every run keeps C >= 0, C <= S for S >= 1, and C < S while transmitting |
| Stepper.InitialBounded | test_Algorism.py:17-20 | the initial state is within the bounds |
| Stepper.InactiveIsSilent | test_Algorism.py:65-67 | once transmission is off, no run without START changes the state or sends on the motor link, even when deferred commands fire |
| Stepper.RoundAdvances | test_Algorism.py:89-95 | an MF polled with a step left, then its deferred command: C + 1, one schedule, one step command |
| Stepper.RoundsAdvance | test_Algorism.py:89-95 | n such rounds advance C by n and send n step commands, each scheduled at 3000 ms |
| Stepper.BeginStarts | test_Algorism.py:46-62 | START from any state sends exactly the first step command and schedules nothing |
| Stepper.LastRound | test_Algorism.py:96-98 | the last MF ends transmission with C = S and sends nothing |
| Stepper.SweepOutputs | test_Algorism.py:46-98 | START's one command and the S - 1 commands of the rounds make S commands |
| Stepper.SweepSendsEveryStep | test_Algorism.py:46-98 | given S >= 1 acknowledgements, exactly S step commands go out (S - 1 of them deferred), C ends at S and transmission stops |
| GridReceiver.StepWiring | test_MeS.py:137-149 | the button only sends the request, an arriving line only joins the link's buffer, and only the timer tick reads the link |
| GridReceiver.Press | test_MeS.py:151-153 | the button sends exactly "MeS\n" on the sensor link and nothing else |
| GridReceiver.Tick | test_MeS.py:155-179 | an empty read, "MeF" or a line without 64 fields changes nothing; an accepted line's grid is displayed and its points replace what was shown |
| GridReceiver.TerminatorIsNoGrid | test_MeS.py:162-169 | "MeF" could never be a grid |
| GridReceiver.StepShows | test_MeS.py:155-179 | one event displays at most one grid and then shows exactly its points |
| GridReceiver.ShowsLastCons | test_MeS.py:46-71 | a step followed by a run shows the last grid displayed over both |
| GridReceiver.ShowsLastGrid | test_MeS.py:46-71 | after any run, the viewer shows exactly the last displayed grid's points (or what it showed before); there is no accumulation |
| GridReceiver.EmptyUntilFirstGrid | test_MeS.py:46-71 | from the window's initial state the viewer stays empty until a grid is displayed |
| SweepMeasure.StepWiring | um1.py:168-190 | an arriving line only joins its link's buffer; a timer tick reads the motor link twice and the sensor link once; START and the deferred step command read neither |
| SweepMeasure.SendStepCommand | um1.py:215-218 | the step command always goes out on the motor link, whatever the flags |
| SweepMeasure.Start | um1.py:195-210 | a non-integer changes nothing; an integer resets C, sets SC, activates the motor, deactivates measuring and sends one step command, keeping buffer and plot |
| SweepMeasure.MotorPhase | um1.py:225-247 | a counted MF with steps left schedules a command at 3000 ms; the last one stops the motor, sends "start measure", empties the buffer and starts measuring; RF stops the motor; anything else is dropped |
| SweepMeasure.FinishMeasure | um1.py:254-265 | "measure done" sends exactly "reset angle" and clears measuring; the buffer is replotted exactly when it has 64 cells |
| SweepMeasure.ReceiveData | um1.py:267-280 | a 64-field line's grid becomes the buffer and replaces the plot; any other line changes nothing |
| SweepMeasure.SensorPhase | um1.py:250-280 | the sensor read dispatches "measure done" and other lines; at most the buffer is shown |
| SweepMeasure.ResetPhase | um1.py:283-286 | the finish is reported exactly when the line is "reset done"; nothing is sent |
| SweepMeasure.MotorKeepsBuffer | um1.py:236-243 | only the last counted MF touches the buffer, and it empties it |
| SweepMeasure.Tick | um1.py:223-286 | the tick reads motor, sensor, motor; the finish is reported exactly when the second motor read is "reset done" |
| SweepMeasure.TickMoves | um1.py:225-247 | an MF while the motor is active advances C by one and nothing else changes C; with steps left it schedules a step command at 3000 ms, after the last step it sends "start measure", stops the motor and starts measuring whatever the sensor read returns; RF stops the motor; otherwise the motor flag and, short of "measure done", the measuring flag stay; S and SC never change |
| SweepMeasure.TickSenses | um1.py:250-280 | on the state the motor read left, a 64-field line becomes the buffer and the plot; "measure done" sends "reset angle", clears measuring and replots the buffer only when it holds 64 cells; any other read changes neither the plot, the buffer the motor read left, nor the motor link |
| SweepMeasure.TickDropsEarlyReset | um1.py:225-247 | "reset done" on the first motor read changes nothing and emits nothing; the tick is its sensor read and its second motor read |
| SweepMeasure.TickOnAck | um1.py:229-235 | a tick that reads only a counted MF with steps left counts it and schedules one command |
| SweepMeasure.TickOnLastAck | um1.py:236-243 | a tick that reads the last MF stops the motor and starts measuring |
| SweepMeasure.RoundAdvances | um1.py:229-235 | one round with a step left: C + 1, one schedule, one step command |
| SweepMeasure.RoundsAdvance | um1.py:229-235 | n rounds advance C by n and send n step commands and nothing on the sensor |
| SweepMeasure.BeginStarts | um1.py:195-210 | START from any state sends one step command and schedules nothing |
| SweepMeasure.LastRound | um1.py:236-243 | the last MF sends only "start measure" and leaves C = S, motor off, measuring on, buffer empty |
| SweepMeasure.StartedAdvances | um1.py:195-235 | START followed by S - 1 rounds sends S step commands, schedules S - 1, and leaves C = S - 1 with the motor active |
| SweepMeasure.SweepStartsMeasuring | um1.py:195-247 | a full sweep of S >= 1 steps sends exactly S step commands, then one "start measure", with C = S |
| SweepMeasure.InactiveMotorHoldsCount | um1.py:229 | once the motor is inactive, no run without START changes C or reactivates it |
| SweepMeasure.IdleBeforeStart | um1.py:179-185 | from the window's initial state, no run without START counts a step or starts the motor |
| SweepMeasure.AbortKeepsPendingStep | um1.py:245-247 | RF stops the motor, but a step command already scheduled still goes out |
| SweepMeasure.StepShows | um1.py:258-280 | one event displays at most the buffered grid and then shows exactly its points |
| SweepMeasure.ShowsLastGrid | um1.py:56-87 | after any run, the viewer shows exactly the last displayed grid's points (or what it showed before) |
| StepCapture.StepWiring | good_file.py:170-198 | an arriving line only joins its link's buffer; a timer tick reads the motor link once and the sensor link unless RF is awaited or read; START and the deferred callbacks read neither, and a callback keeps the state |
| StepCapture.Fire | good_file.py:222-232 | the deferred step command is sent only while active; the measurement request always is |
| StepCapture.Start | good_file.py:201-218 | a non-integer changes nothing; an integer sets S, SC, C = 0, active, not waiting, sends one step command and keeps the cloud |
| StepCapture.ProjectionsOne | good_file.py:270-274 | a single capture adds the grid's points projected around C * SC |
| StepCapture.Record | good_file.py:270-277 | the viewer is centred on C * SC, the grid's points are appended, and C counts the capture |
| StepCapture.Capture | good_file.py:270-287 | with samples left, a step is scheduled at 100 ms; at C = S, "RM" is sent and RF awaited; beyond S nothing is sent; the grid is shown and recorded |
| StepCapture.Receive | good_file.py:256-268 | a 64-field sensor line is captured; anything else changes nothing |
| StepCapture.Proceed | good_file.py:252-256 | a measurement request is scheduled at 2000 ms exactly when the motor line is MF, active or not, and it is the only timer the motor line adds; then the sensor is read, and only the capture sends on the motor link |
| StepCapture.Tick | good_file.py:235-287 | while waiting, only the motor is read and only RF ends the wait; otherwise RF stops and skips the sensor read; C and the cloud advance exactly by the displayed grids |
| StepCapture.TickProceeds | good_file.py:245-287 | neither waiting nor reading RF, a 64-field sensor line is recorded and displayed and C counts it, any other sensor line changes nothing, MF adds exactly one 2000 ms request, and the motor link gets only what the capture sends |
| StepCapture.CloudOnlyGrows | good_file.py:74 | no run removes a point from the cloud, START included |
| StepCapture.ProjectionsAppend | good_file.py:270-277 | the projections of consecutive captures concatenate, the second batch starting at the advanced count |
| StepCapture.CapturedTrans | good_file.py:256-287 | two capture segments compose into one |
| StepCapture.RunCapturesInOrder | good_file.py:256-287 | between STARTs, the cloud grows by exactly the displayed grids' projections in display order, the k-th around (C0 + k) * SC |
| StepCapture.Grids | good_file.py:261-268 | the decoded grids of decodable lines, in order |
| StepCapture.TickOnAck | good_file.py:252-254 | a tick reading only MF schedules the measurement request and nothing else |
| StepCapture.TickOnData | good_file.py:256-287 | a tick reading only a grid line captures it |
| StepCapture.AskRun | good_file.py:252-254 | MF polled and its request fired: one schedule, then "MeS\n" on the sensor |
| StepCapture.DeliverRun | good_file.py:256-287 | a grid line polled, then the deferred step command fired |
| StepCapture.RoundCaptures | good_file.py:252-287 | one round with a sample left sends "MeS\n", records the grid and sends the next step command, or "RM" after the last |
| StepCapture.RoundContinues | good_file.py:280-281 | a round with more than one sample left stays active and sends one step command |
| StepCapture.CollectRun | good_file.py:256-287 | the last grid line polled captures it, with no step command pending afterwards |
| StepCapture.LastRoundCaptures | good_file.py:252-287 | the last round sends "MeS\n" and then "RM", records and shows the grid, and leaves the controller waiting for RF |
| StepCapture.RoundsCaptureLast | good_file.py:282-287 | the last round sends "RM" and leaves the controller waiting for RF |
| StepCapture.SweptCons | good_file.py:252-287 | a continuing round followed by the remaining rounds gives the whole sweep's outcome |
| StepCapture.RoundsCapture | good_file.py:252-287 | rounds for the remaining samples capture every grid in order and end with "RM" and the wait for RF |
| StepCapture.SweepCapturesEveryGrid | good_file.py:201-287 | a sweep of S >= 1 decodable lines: S step commands then "RM", S requests, every grid shown in order and appended to the existing cloud around k * SC; it ends with C = S, inactive and waiting for RF |
| StepCapture.IdleStep | good_file.py:222-287 | with transmission off and at least S captures counted, no event but START commands the motor, and that stays so |
| StepCapture.IdleRun | good_file.py:222-287 | from such a state, no run without START sends anything on the motor link |
| StepCapture.NoMotorCommandBeforeStart | good_file.py:189-198 | from the window's initial state, whatever the links deliver, nothing goes to the motor before START |
| StepCapture.SweepTotals | good_file.py:201-287 | START's one step command, followed by the rounds' S - 1 commands and "RM", gives S commands then "RM"; the S requests and the grids pass through in order |

## Left out

- Qt widgets, matplotlib drawing, axis limits and labels, the window layout and `__main__`: only what the viewers are handed and the points they hold are modelled.
- The 8x8 distance table's text (`∞`, two decimals) is not modelled. It is the same `Display` effect as the 3-D plot.
- The serial ports, baud rates, read timeouts, `decode(errors="ignore")`, `strip()` and `in_waiting` are not modelled. A link is the sequence of lines its reads return, already stripped.
- Sends are modelled as always succeeding. In `good_file.py`, `um1.py` and `test_MeS.py`, `send` swallows a failing write. In `test_Algorism.py` the write (test_Algorism.py:69) and the read (test_Algorism.py:75) are not guarded, so a serial error there would raise out of the Qt slot; that path is not modelled.
- Timer periods and wall-clock time are not modelled. A `Timer` event is not tied to a particular earlier `Schedule`, and the sweep lemmas fix one event order.
- `float()`, `math.radians/sin/cos` and three-decimal formatting are uninterpreted host functions. Floating-point rounding is not modelled, and distances are reals. Python's `float()` also accepts "nan", "inf" and "-inf", and reals have no such values, so a field that parses to one is outside the model. In the source, good_file.py:62's `dist is None or dist <= 0` would keep nan and +inf and drop -inf; um1.py:69 and test_MeS.py:57 test only for `None` and would keep all three.
- `print` calls and the status, received-data and angle labels are not modelled. Only the invalid-input, started and all-finished statuses are kept, as reports.
- A sample count of zero is excluded by the precondition of each `Start` and by the `SampleCount` type of the START event. In the source, `360 / 0` raises `ZeroDivisionError` in a Qt slot.
- Cancelling pending deferred callbacks, rejecting a non-positive S and clearing the cloud at START are not modelled, because no controller's code does them.
- The 360/S used inside the step command is the real quotient. Python's float division is not modelled.

=== FILE: fields.dfy ===
/** Splitting a line on commas, as Python's `line.split(",")` does, and its inverse. */
module Fields {

  /** The number of commas in `s`. */
  function CommaCount(s: string): nat
  {
    if s == [] then 0 else (if s[0] == ',' then 1 else 0) + CommaCount(s[1..])
  }

  /** The fields joined back together with one comma between neighbours. */
  function Join(fields: seq<string>): string
    requires |fields| >= 1
  {
    if |fields| == 1 then fields[0] else fields[0] + "," + Join(fields[1..])
  }

  /**
   * The comma-free pieces of `s`: there is always one more field than there
   * are commas (so the empty line has one empty field), and joining the fields
   * gives `s` back.
   */
  function Split(s: string): (fields: seq<string>)
    ensures |fields| == CommaCount(s) + 1
    ensures forall k :: 0 <= k < |fields| ==> ',' !in fields[k]
    ensures Join(fields) == s
  {
    if s == [] then [""]
    else
      var rest := Split(s[1..]);
      if s[0] == ',' then
        [""] + rest
      else
        var first := [s[0]] + rest[0];
        assert s == [s[0]] + s[1..];
        assert |rest| > 1 ==> Join(rest) == rest[0] + "," + Join(rest[1..]);
        [first] + rest[1..]
  }

  /** A comma-free text is a single field. */
  lemma {:induction false} SplitCommaFree(a: string)
    requires ',' !in a
    ensures Split(a) == [a]
  {
    if a != [] {
      assert ',' !in a[1..];
      SplitCommaFree(a[1..]);
      assert [a[0]] + a[1..] == a;
    }
  }

  /** The text up to the first comma is the first field; the rest splits on its own. */
  lemma {:induction false} SplitAtFirstComma(a: string, b: string)
    requires ',' !in a
    ensures Split(a + "," + b) == [a] + Split(b)
  {
    var s := a + "," + b;
    if a == [] {
      assert s[0] == ',' && s[1..] == b;
    } else {
      assert s[0] == a[0] && s[1..] == a[1..] + "," + b;
      assert ',' !in a[1..];
      SplitAtFirstComma(a[1..], b);
      assert [a[0]] + a[1..] == a;
    }
  }

  /** Splitting the join of comma-free fields gives exactly those fields back. */
  lemma {:induction false} SplitJoin(fields: seq<string>)
    requires |fields| >= 1
    requires forall k :: 0 <= k < |fields| ==> ',' !in fields[k]
    ensures Split(Join(fields)) == fields
  {
    if |fields| == 1 {
      SplitCommaFree(fields[0]);
    } else {
      SplitAtFirstComma(fields[0], Join(fields[1..]));
      SplitJoin(fields[1..]);
      assert [fields[0]] + fields[1..] == fields;
    }
  }
}

=== FILE: grid_decoder.dfy ===
/**
 * The sensor-line decoder shared by the three controllers that read the
 * sensor head: a line is a grid only when it has exactly 64 comma-separated
 * fields, and each field becomes a distance in centimetres or, where the
 * number does not parse, a missing cell. Zero and negative readings are kept.
 */
module GridDecoder {
  import opened Wrappers
  import opened HostNumerics
  import opened Fields

  const GridSize: nat := 8
  const GridCells: nat := GridSize * GridSize

  /** Row-major 8x8 distances in centimetres; None where the field did not parse. */
  type Grid = seq<Option<real>>

  /** One field: the wire value (tenths of a centimetre) divided by ten, or None where it does not parse. */
  function Reading(host: Host, field: string): (d: Option<real>)
    ensures d.None? <==> host.parseFloat(field).None?
    ensures d.Some? ==> d.value * 10.0 == host.parseFloat(field).value
  {
    match host.parseFloat(field)
    case None => None
    case Some(v) => Some(v / 10.0)
  }

  /** A sensor line as a grid, or None when it does not have exactly 64 fields. */
  function Decode(host: Host, line: string): (g: Option<Grid>)
    ensures g.Some? <==> CommaCount(line) == GridCells - 1
    ensures g.Some? ==> |g.value| == GridCells
    ensures g.Some? ==> forall i :: 0 <= i < GridCells ==> g.value[i] == Reading(host, Split(line)[i])
  {
    var fields := Split(line);
    if |fields| != GridCells then None
    else Some(seq(GridCells, i requires 0 <= i < GridCells => Reading(host, fields[i])))
  }

  /**
   * Decoding the comma-join of 64 comma-free fields: cell i is field i alone,
   * read on its own, so a field that does not parse spoils only its own cell.
   */
  lemma DecodeJoined(host: Host, fields: seq<string>)
    requires |fields| == GridCells
    requires forall k :: 0 <= k < |fields| ==> ',' !in fields[k]
    ensures Decode(host, Join(fields)) == Some(seq(GridCells, i requires 0 <= i < GridCells => Reading(host, fields[i])))
  {
    SplitJoin(fields);
  }

  /** The comma-join of any other number of comma-free fields is rejected. */
  lemma DecodeJoinedRejects(host: Host, fields: seq<string>)
    requires |fields| >= 1 && |fields| != GridCells
    requires forall k :: 0 <= k < |fields| ==> ',' !in fields[k]
    ensures Decode(host, Join(fields)).None?
  {
    SplitJoin(fields);
  }
}

=== FILE: grid_receiver.dfy ===
/**
 * The sensor-only receiver (test_MeS.py): a button sends the measurement
 * request, and every poll that reads a 64-field line replots the grid it
 * decodes, replacing the points shown before; "MeF" ends a measurement and
 * any other line is rejected.
 */
module GridReceiver {
  import opened Wrappers
  import opened HostNumerics
  import opened Fields
  import opened GridDecoder
  import opened PointProjector
  import opened Protocol
  import opened Runs

  /** What the 3-D viewer shows; its azimuth center stays at FixedCenter. */
  datatype State = State(shown: seq<Point>)

  const Initial: State := State([])

  /** The button: exactly the measurement request, on the sensor link. */
  function Press(): (out: seq<Effect>)
    ensures SentOn(out, Sensor) == [MeasureRequest]
    ensures SentOn(out, Motor) == [] && Scheduled(out) == [] && Displays(out) == []
  {
    FiltersOne(Send(Sensor, MeasureRequest));
    [Send(Sensor, MeasureRequest)]
  }

  /** A read line the receiver plots: not the terminator, and exactly 64 fields. */
  predicate Accepts(host: Host, line: Option<string>)
  {
    line.Some? && line.value != MeasureFinished && Decode(host, line.value).Some?
  }

  datatype TickOutcome = TickOutcome(st: State, feed: Feed, out: seq<Effect>)

  /**
   * One poll: an empty read, the terminator or a line without 64 fields
   * changes nothing; an accepted line's grid is displayed and its points,
   * dropping only missing cells, replace what was shown.
   */
  function Tick(host: Host, st: State, feed: Feed): (r: TickOutcome)
    ensures r.feed == ReadLine(feed).rest
    ensures !Accepts(host, ReadLine(feed).line) ==> r.st == st && r.out == []
    ensures Accepts(host, ReadLine(feed).line) ==>
      var g := Decode(host, ReadLine(feed).line.value).value;
      && |g| == GridCells
      && r.st.shown == Project(host, g, FixedCenter, SkipMissing)
      && r.out == [Display(g)]
  {
    var read := ReadLine(feed);
    match read.line
    case None => TickOutcome(st, read.rest, [])
    case Some(line) =>
      if line == MeasureFinished then TickOutcome(st, read.rest, [])
      else
        match Decode(host, line)
        case None => TickOutcome(st, read.rest, [])
        case Some(g) => TickOutcome(State(Replot(host, st.shown, g)), read.rest, [Display(g)])
  }

  /** The terminator has no comma, so it could never have been a grid anyway. */
  lemma TerminatorIsNoGrid(host: Host)
    ensures Decode(host, MeasureFinished).None?
  {
    assert CommaCount(MeasureFinished) == 0;
  }

  // ---------------------------------------------------------------------------
  // Runs.

  datatype Event = Click | Poll | Arrive(read: Option<string>)

  datatype World = World(st: State, feed: Feed)


  function Step(host: Host, w: World, e: Event): Trace<World>
  {
    match e
    case Click => Trace(w, Press())
    case Poll =>
      var t := Tick(host, w.st, w.feed);
      Trace(World(t.st, t.feed), t.out)
    case Arrive(read) => Trace(w.(feed := w.feed + [read]), [])
  }

  function Steps(host: Host): (World, Event) -> Trace<World>
  {
    (w, e) => Step(host, w, e)
  }

  /**
   * How the window is wired: the button only sends the request, an arriving
   * line only joins the link's buffer, and only a timer tick reads the link.
   */
  lemma StepWiring(host: Host, w: World, e: Event)
    ensures var t := Step(host, w, e);
      && (e.Click? ==> t.w == w && t.out == Press())
      && (e.Arrive? ==> t.w == w.(feed := w.feed + [e.read]) && t.out == [])
      && (e.Poll? ==> t.w.feed == ReadLine(w.feed).rest)
  {
  }

  /** One event displays at most one grid, and then shows exactly its points. */
  lemma StepShows(host: Host, w: World, e: Event)
    ensures var t := Step(host, w, e);
      || (Displays(t.out) == [] && t.w.st == w.st)
      || (|Displays(t.out)| == 1 && |Displays(t.out)[0]| == GridCells &&
          t.w.st.shown == Project(host, Displays(t.out)[0], FixedCenter, SkipMissing))
  {
    var t := Step(host, w, e);
    if t.out != [] {
      assert |t.out| == 1;
      FiltersOne(t.out[0]);
    }
  }

  /**
   * After a trace the viewer shows the points of the last grid displayed, or
   * `shown` if none was; every displayed grid has 64 cells.
   */
  predicate ShowsLast(host: Host, shown: seq<Point>, t: Trace<World>)
  {
    && (forall k :: 0 <= k < |Displays(t.out)| ==> |Displays(t.out)[k]| == GridCells)
    && (Displays(t.out) == [] ==> t.w.st.shown == shown)
    && (Displays(t.out) != [] ==>
          t.w.st.shown == Project(host, Displays(t.out)[|Displays(t.out)| - 1], FixedCenter, SkipMissing))
  }

  lemma ShowsLastCons(host: Host, w: World, first: Trace<World>, rest: Trace<World>)
    requires || (Displays(first.out) == [] && first.w.st == w.st)
             || (|Displays(first.out)| == 1 && |Displays(first.out)[0]| == GridCells &&
                 first.w.st.shown == Project(host, Displays(first.out)[0], FixedCenter, SkipMissing))
    requires ShowsLast(host, first.w.st.shown, rest)
    ensures ShowsLast(host, w.st.shown, Trace(rest.w, first.out + rest.out))
  {
    FiltersAppend(first.out, rest.out);
  }

  /**
   * No accumulation: after any run the viewer shows exactly the points of the
   * last grid displayed (dropping only missing cells, around azimuth 0), or
   * what it showed before if no grid was displayed; every displayed grid has 64 cells.
   */
  lemma {:induction false} ShowsLastGrid(host: Host, w: World, events: seq<Event>)
    ensures var t := Run(Steps(host), w, events);
      forall k :: 0 <= k < |Displays(t.out)| ==> |Displays(t.out)[k]| == GridCells
    ensures var t := Run(Steps(host), w, events);
      Displays(t.out) == [] ==> t.w.st.shown == w.st.shown
    ensures var t := Run(Steps(host), w, events);
      Displays(t.out) != [] ==>
        t.w.st.shown == Project(host, Displays(t.out)[|Displays(t.out)| - 1], FixedCenter, SkipMissing)
    decreases |events|
  {
    if events != [] {
      var first := Step(host, w, events[0]);
      var rest := Run(Steps(host), first.w, events[1..]);
      StepShows(host, w, events[0]);
      ShowsLastGrid(host, first.w, events[1..]);
      ShowsLastCons(host, w, first, rest);
      assert Run(Steps(host), w, events) == Trace(rest.w, first.out + rest.out);
    }
  }

  /** Until the first grid is displayed the viewer stays empty. */
  lemma EmptyUntilFirstGrid(host: Host, feed: Feed, events: seq<Event>)
    ensures var t := Run(Steps(host), World(Initial, feed), events);
      Displays(t.out) == [] ==> t.w.st.shown == []
  {
    ShowsLastGrid(host, World(Initial, feed), events);
  }
}

=== FILE: host_numerics.dfy ===
/**
 * The host language's numeric and text primitives that the controllers call but
 * whose exact behaviour is not modelled: Python's float() grammar, fixed-point
 * formatting and the trigonometric functions. They are total functions handed in
 * as one value, so every operation that needs them is parametric in them.
 */
module HostNumerics {
  import opened Wrappers

  datatype Host = Host(
    parseFloat: string -> Option<real>, // float(text); None where it raises
    fixed3: real -> string,             // f"{x:.3f}"
    radians: real -> real,              // math.radians
    sin: real -> real,                  // math.sin
    cos: real -> real)                  // math.cos
}

=== FILE: point_projector.dfy ===
/**
 * The projection of one decoded grid into 3-D points. Column c looks along
 * azimuth `center - 30 + c * 60/7` degrees, so the eight columns span the 60
 * degree field of view; row r looks along a fixed elevation. A cell produces a
 * point only when the projector's policy keeps it, and points come out in
 * row-major order (cell r*8+c). The trigonometry itself is the host's.
 */
module PointProjector {
  import opened Wrappers
  import opened HostNumerics
  import opened GridDecoder

  const FovDeg: real := 60.0

  /** Elevation in degrees of each sensor row, row 0 looking most upward. */
  const Elevations: seq<int> := [30, 15, 0, -15, -30, -45, -60, -75]

  datatype Point = Point(x: real, y: real, z: real)

  /** Which cells give no point: the accumulating viewer also drops distances <= 0. */
  datatype Policy = SkipMissing | SkipMissingOrNonPositive

  /** Whether a cell gives a point: never a missing one, and under the stricter policy only a positive distance. */
  function Keeps(policy: Policy, cell: Option<real>): (kept: bool)
    ensures cell.None? ==> !kept
    ensures policy == SkipMissing ==> (kept <==> cell.Some?)
    ensures policy == SkipMissingOrNonPositive ==> (kept <==> cell.Some? && cell.value > 0.0)
  {
    match cell
    case None => false
    case Some(d) => policy == SkipMissing || d > 0.0
  }

  /** Azimuth in degrees of column c; the columns run from center - 30 to center + 30. */
  function ColumnAzimuth(center: real, c: nat): (az: real)
    requires c < GridSize
    ensures center - FovDeg / 2.0 <= az <= center + FovDeg / 2.0
    ensures c == 0 ==> az == center - FovDeg / 2.0
    ensures c == GridSize - 1 ==> az == center + FovDeg / 2.0
  {
    center - FovDeg / 2.0 + (c as real) * FovDeg / ((GridSize - 1) as real)
  }

  /** Columns further right look further clockwise, by 60/7 degrees per column. */
  lemma ColumnsAscend(center: real, c: nat)
    requires c + 1 < GridSize
    ensures ColumnAzimuth(center, c + 1) == ColumnAzimuth(center, c) + FovDeg / 7.0
  {
  }

  function Scale(a: real, p: Point): Point
  {
    Point(a * p.x, a * p.y, a * p.z)
  }

  /** The line of sight of the sensor element in row r, column c: x east, y ahead, z up. */
  function Direction(host: Host, r: nat, c: nat, center: real): Point
    requires r < GridSize && c < GridSize
  {
    var az := host.radians(ColumnAzimuth(center, c));
    var el := host.radians(Elevations[r] as real);
    Point(host.sin(az) * host.cos(el), host.cos(az) * host.cos(el), host.sin(el))
  }

  /**
   * The point seen at distance d by the sensor element in row r, column c: d
   * along that element's line of sight, at a height that depends on the row
   * alone.
   */
  function CellPoint(host: Host, d: real, r: nat, c: nat, center: real): (p: Point)
    requires r < GridSize && c < GridSize
    ensures p == Scale(d, Direction(host, r, c, center))
    ensures p.z == d * host.sin(host.radians(Elevations[r] as real))
  {
    var az := host.radians(ColumnAzimuth(center, c));
    var el := host.radians(Elevations[r] as real);
    var sinAz, cosAz, cosEl := host.sin(az), host.cos(az), host.cos(el);
    assert d * sinAz * cosEl == d * (sinAz * cosEl);
    assert d * cosAz * cosEl == d * (cosAz * cosEl);
    Point(d * sinAz * cosEl, d * cosAz * cosEl, d * host.sin(el))
  }

  /** Scaling a distance scales its point: points of one element lie on one ray from the sensor. */
  lemma CellPointScales(host: Host, a: real, d: real, r: nat, c: nat, center: real)
    requires r < GridSize && c < GridSize
    ensures CellPoint(host, a * d, r, c, center) == Scale(a, CellPoint(host, d, r, c, center))
  {
    var u := Direction(host, r, c, center);
    assert (a * d) * u.x == a * (d * u.x);
    assert (a * d) * u.y == a * (d * u.y);
    assert (a * d) * u.z == a * (d * u.z);
  }

  /** The point of cell i of a grid, cell i being row i / 8, column i % 8. */
  function PointAt(host: Host, grid: Grid, center: real, i: nat): Point
    requires |grid| == GridCells && i < GridCells && grid[i].Some?
  {
    CellPoint(host, grid[i].value, i / GridSize, i % GridSize, center)
  }

  /** The cells before cell n that the policy keeps, in ascending order. */
  function KeptBelow(grid: Grid, policy: Policy, n: nat): (ks: seq<nat>)
    requires n <= |grid|
    ensures |ks| <= n
    ensures forall k :: 0 <= k < |ks| ==> ks[k] < n && Keeps(policy, grid[ks[k]])
    ensures forall i {:trigger i in ks} :: 0 <= i < n && Keeps(policy, grid[i]) ==> i in ks
    ensures forall j, k :: 0 <= j < k < |ks| ==> ks[j] < ks[k]
  {
    if n == 0 then []
    else KeptBelow(grid, policy, n - 1) + (if Keeps(policy, grid[n - 1]) then [n - 1] else [])
  }

  /** How many kept cells come before cell i: the position of cell i's point. */
  function Rank(grid: Grid, policy: Policy, i: nat): nat
    requires i <= |grid|
  {
    |KeptBelow(grid, policy, i)|
  }

  function PointsAt(host: Host, grid: Grid, center: real, ks: seq<nat>): seq<Point>
    requires |grid| == GridCells
    requires forall k :: 0 <= k < |ks| ==> ks[k] < GridCells && grid[ks[k]].Some?
  {
    seq(|ks|, k requires 0 <= k < |ks| => PointAt(host, grid, center, ks[k]))
  }

  /** The points of a grid seen around azimuth `center`; nothing for a grid of the wrong size. */
  function Project(host: Host, grid: Grid, center: real, policy: Policy): (pts: seq<Point>)
    ensures |grid| != GridCells ==> pts == []
    ensures |grid| == GridCells ==> |pts| == Rank(grid, policy, GridCells)
    ensures |pts| <= GridCells
  {
    if |grid| != GridCells then []
    else PointsAt(host, grid, center, KeptBelow(grid, policy, GridCells))
  }

  /** The kept cells before the k-th kept cell are exactly the first k kept cells. */
  lemma {:induction false} KeptPrefix(grid: Grid, policy: Policy, n: nat, k: nat)
    requires n <= |grid|
    requires k < |KeptBelow(grid, policy, n)|
    ensures KeptBelow(grid, policy, KeptBelow(grid, policy, n)[k]) == KeptBelow(grid, policy, n)[..k]
  {
    var ks := KeptBelow(grid, policy, n);
    var prev := KeptBelow(grid, policy, n - 1);
    assert ks == prev + (if Keeps(policy, grid[n - 1]) then [n - 1] else []);
    if k < |prev| {
      KeptPrefix(grid, policy, n - 1, k);
      assert ks[k] == prev[k];
      assert ks[..k] == prev[..k];
    } else {
      assert ks[k] == n - 1;
      assert ks[..k] == prev;
    }
  }

  /** Project of a 64-cell grid lists the points of the kept cells, in order. */
  lemma ProjectKept(host: Host, grid: Grid, center: real, policy: Policy)
    requires |grid| == GridCells
    ensures |Project(host, grid, center, policy)| == Rank(grid, policy, GridCells)
    ensures forall k :: 0 <= k < Rank(grid, policy, GridCells) ==>
      Project(host, grid, center, policy)[k] == PointAt(host, grid, center, KeptBelow(grid, policy, GridCells)[k])
  {
  }

  /**
   * Projection in row-major order: one point per kept cell and no other; the
   * point of kept cell i sits at position Rank(i), and the point at position k
   * comes from a kept cell of rank k.
   */
  lemma ProjectRowMajor(host: Host, grid: Grid, center: real, policy: Policy)
    requires |grid| == GridCells
    ensures |Project(host, grid, center, policy)| == Rank(grid, policy, GridCells)
    ensures forall i :: 0 <= i < GridCells && Keeps(policy, grid[i]) ==>
      && Rank(grid, policy, i) < |Project(host, grid, center, policy)|
      && Project(host, grid, center, policy)[Rank(grid, policy, i)] == PointAt(host, grid, center, i)
    ensures forall k :: 0 <= k < |Project(host, grid, center, policy)| ==>
      var i := KeptBelow(grid, policy, GridCells)[k];
      i < GridCells && Keeps(policy, grid[i]) && Rank(grid, policy, i) == k &&
      Project(host, grid, center, policy)[k] == PointAt(host, grid, center, i)
  {
    var ks := KeptBelow(grid, policy, GridCells);
    var pts := Project(host, grid, center, policy);
    ProjectKept(host, grid, center, policy);
    forall i | 0 <= i < GridCells && Keeps(policy, grid[i])
      ensures Rank(grid, policy, i) < |pts| && pts[Rank(grid, policy, i)] == PointAt(host, grid, center, i)
    {
      assert i in ks;
      var k :| 0 <= k < |ks| && ks[k] == i;
      KeptPrefix(grid, policy, GridCells, k);
      assert Rank(grid, policy, i) == k;
    }
    forall k | 0 <= k < |pts|
      ensures Rank(grid, policy, ks[k]) == k
    {
      KeptPrefix(grid, policy, GridCells, k);
    }
  }

  /** A grid yields no point exactly when the policy keeps none of its cells. */
  lemma ProjectEmpty(host: Host, grid: Grid, center: real, policy: Policy)
    requires |grid| == GridCells
    ensures Project(host, grid, center, policy) == [] <==>
      forall i :: 0 <= i < GridCells ==> !Keeps(policy, grid[i])
  {
    var ks := KeptBelow(grid, policy, GridCells);
    ProjectKept(host, grid, center, policy);
    if ks != [] {
      assert Keeps(policy, grid[ks[0]]);
    } else {
      forall i | 0 <= i < GridCells
        ensures !Keeps(policy, grid[i])
      {
        assert i !in ks;
      }
    }
  }

  /** Moving past cell i adds its point, if it is kept, at the end. */
  lemma ProjectStep(host: Host, grid: Grid, center: real, policy: Policy, i: nat)
    requires |grid| == GridCells && i < GridCells
    ensures PointsAt(host, grid, center, KeptBelow(grid, policy, i + 1)) ==
      PointsAt(host, grid, center, KeptBelow(grid, policy, i)) +
      (if Keeps(policy, grid[i]) then [PointAt(host, grid, center, i)] else [])
  {
    var ks := KeptBelow(grid, policy, i);
    assert KeptBelow(grid, policy, i + 1) == ks + (if Keeps(policy, grid[i]) then [i] else []);
  }

  /**
   * The viewer's loop: rows outer, columns inner, cell r*8+c, skipping what the
   * policy drops. It computes the same points as Project.
   */
  method ProjectGrid(host: Host, grid: Grid, center: real, policy: Policy) returns (pts: seq<Point>)
    ensures pts == Project(host, grid, center, policy)
  {
    if |grid| != GridCells {
      return [];
    }
    pts := [];
    var r := 0;
    while r < GridSize
      invariant 0 <= r <= GridSize
      invariant pts == PointsAt(host, grid, center, KeptBelow(grid, policy, r * GridSize))
    {
      var c := 0;
      while c < GridSize
        invariant 0 <= c <= GridSize
        invariant pts == PointsAt(host, grid, center, KeptBelow(grid, policy, r * GridSize + c))
      {
        var i := r * GridSize + c;
        assert i / GridSize == r && i % GridSize == c;
        ProjectStep(host, grid, center, policy, i);
        if Keeps(policy, grid[i]) {
          pts := pts + [CellPoint(host, grid[i].value, r, c, center)];
        }
        c := c + 1;
      }
      r := r + 1;
    }
  }

  /** The accumulating viewer: its current azimuth center and every point plotted so far. */
  datatype Cloud = Cloud(azCenter: real, points: seq<Point>)

  /**
   * Plotting into the accumulating viewer: the points of the grid, dropping
   * missing and non-positive cells, are appended to the cloud; a grid of the
   * wrong size or with no kept cell leaves the cloud as it was.
   */
  function Accumulate(host: Host, cloud: Cloud, grid: Grid): (r: Cloud)
    ensures r.azCenter == cloud.azCenter
    ensures r.points == cloud.points + Project(host, grid, cloud.azCenter, SkipMissingOrNonPositive)
    ensures cloud.points <= r.points
  {
    if |grid| != GridCells then cloud
    else
      var added := Project(host, grid, cloud.azCenter, SkipMissingOrNonPositive);
      if added == [] then cloud else cloud.(points := cloud.points + added)
  }

  /** The azimuth center of the replacing viewers, which never move it. */
  const FixedCenter: real := 0.0

  /**
   * Plotting into a replacing viewer: a 64-cell grid's points, dropping only
   * missing cells, replace what was shown; a grid of any other size changes nothing.
   */
  function Replot(host: Host, shown: seq<Point>, grid: Grid): (r: seq<Point>)
    ensures |grid| == GridCells ==> r == Project(host, grid, FixedCenter, SkipMissing)
    ensures |grid| != GridCells ==> r == shown
  {
    if |grid| != GridCells then shown else Project(host, grid, FixedCenter, SkipMissing)
  }
}

=== FILE: protocol.dfy ===
/**
 * What the controllers exchange with the outside: the two serial links, the
 * line tokens of the motor and sensor firmware, and the effects one step of
 * a controller produces (a line sent, a deferred callback scheduled, a grid
 * handed to the viewers, a status shown).
 */
module Protocol {
  import opened Wrappers
  import opened HostNumerics
  import opened GridDecoder

  datatype LinkId = Motor | Sensor

  /** The callbacks the controllers defer with a one-shot timer. */
  datatype Action = SendStep | SendMeasureRequest

  /** Status-label changes that carry protocol meaning. */
  datatype Notice = InvalidSampleCount | ScanStarted | AllFinished

  datatype Effect =
    | Send(link: LinkId, msg: string)
    | Schedule(delayMs: nat, action: Action)
    | Display(grid: Grid)       // handed to the 3-D viewer and the 8x8 table
    | Report(notice: Notice)

  // Inbound tokens.
  const StepAck := "MF"
  const Abort := "RF"
  const ResetDone := "reset done"
  const MeasureDone := "measure done"
  const MeasureFinished := "MeF"

  // Outbound commands.
  const ReturnHome := "RM"
  const MeasureRequest := "MeS\n"
  const StartMeasure := "start measure\n"
  const ResetAngle := "reset angle\n"

  /** A sample count that int() accepted and that 360 can be divided by. */
  type SampleCount = s: int | s != 0 witness 1

  /** The angle increment of a sweep of s samples: 360 / s degrees. */
  function StepAngle(s: int): (sc: real)
    requires s != 0
    ensures sc * (s as real) == 360.0
  {
    360.0 / (s as real)
  }

  /** The step command: the increment with three decimals and a newline. */
  function StepMessage(host: Host, sc: real): string
  {
    host.fixed3(sc) + "\n"
  }

  /**
   * The step command is the formatted increment, then the newline that ends
   * it; when the formatting itself holds no newline, that is its only one.
   */
  lemma StepMessageLine(host: Host, sc: real)
    ensures var m := StepMessage(host, sc);
      |m| >= 1 && m[|m| - 1] == '\n' && m[..|m| - 1] == host.fixed3(sc)
    ensures var m := StepMessage(host, sc);
      '\n' !in host.fixed3(sc) ==> forall i :: 0 <= i < |m| ==> (m[i] == '\n' <==> i == |m| - 1)
  {
  }

  /**
   * What successive reads of one link return: None for a read that finds no
   * line. A link that is not read keeps its feed; reading past the end finds nothing.
   */
  type Feed = seq<Option<string>>

  datatype ReadResult = ReadResult(line: Option<string>, rest: Feed)

  /** One read_line call; an empty line counts as nothing read. */
  function ReadLine(feed: Feed): (r: ReadResult)
    ensures feed == [] ==> r.rest == [] && r.line == None
    ensures feed != [] ==> r.rest == feed[1..]
    ensures r.line.Some? ==> r.line.value != "" && feed != [] && feed[0] == r.line
    ensures feed != [] && feed[0] != Some("") ==> r.line == feed[0]
  {
    if feed == [] then ReadResult(None, [])
    else if feed[0] == Some("") then ReadResult(None, feed[1..])
    else ReadResult(feed[0], feed[1..])
  }

  /**
   * Lines that arrive later do not change what a read returns from a feed
   * that already holds a line; on an empty feed the read finds nothing and
   * leaves the late lines waiting.
   */
  lemma ReadLineAppend(feed: Feed, later: Feed)
    ensures feed != [] ==>
      ReadLine(feed + later) == ReadResult(ReadLine(feed).line, ReadLine(feed).rest + later)
    ensures feed == [] ==> ReadLine(feed) == ReadResult(None, [])
  {
    if feed != [] {
      assert (feed + later)[0] == feed[0];
      assert (feed + later)[1..] == feed[1..] + later;
    }
  }

  /** The lines sent on one link, in order. */
  function SentOn(out: seq<Effect>, link: LinkId): seq<string>
  {
    if out == [] then []
    else (if out[0].Send? && out[0].link == link then [out[0].msg] else []) + SentOn(out[1..], link)
  }

  /** The timer callbacks requested, in order. */
  function Scheduled(out: seq<Effect>): seq<Effect>
  {
    if out == [] then []
    else (if out[0].Schedule? then [out[0]] else []) + Scheduled(out[1..])
  }

  /** The grids handed to the viewers, in order. */
  function Displays(out: seq<Effect>): seq<Grid>
  {
    if out == [] then []
    else (if out[0].Display? then [out[0].grid] else []) + Displays(out[1..])
  }

  /** `n` copies of one line. */
  function Copies(msg: string, n: nat): (r: seq<string>)
    ensures |r| == n && forall k :: 0 <= k < n ==> r[k] == msg
  {
    if n == 0 then [] else [msg] + Copies(msg, n - 1)
  }

  /** The sent lines, scheduled callbacks and displayed grids of a concatenation. */
  lemma {:induction false} FiltersAppend(a: seq<Effect>, b: seq<Effect>)
    ensures SentOn(a + b, Motor) == SentOn(a, Motor) + SentOn(b, Motor)
    ensures SentOn(a + b, Sensor) == SentOn(a, Sensor) + SentOn(b, Sensor)
    ensures Scheduled(a + b) == Scheduled(a) + Scheduled(b)
    ensures Displays(a + b) == Displays(a) + Displays(b)
  {
    if a != [] {
      assert (a + b)[0] == a[0];
      assert (a + b)[1..] == a[1..] + b;
      FiltersAppend(a[1..], b);
    } else {
      assert a + b == b;
    }
  }

  /** The filters of a single effect. */
  lemma FiltersOne(e: Effect)
    ensures SentOn([e], Motor) == (if e.Send? && e.link == Motor then [e.msg] else [])
    ensures SentOn([e], Sensor) == (if e.Send? && e.link == Sensor then [e.msg] else [])
    ensures Scheduled([e]) == (if e.Schedule? then [e] else [])
    ensures Displays([e]) == (if e.Display? then [e.grid] else [])
  {
    assert [e][1..] == [];
  }

  lemma CopiesAppend(msg: string, m: nat, n: nat)
    ensures Copies(msg, m) + Copies(msg, n) == Copies(msg, m + n)
  {
  }
}

=== FILE: runs.dfy ===
/**
 * Runs of a controller: a sequence of events handled one after another by
 * the controller's step function, collecting the effects in order. Each
 * controller supplies its own world (its state plus what its links will
 * return) and its own events.
 */
module Runs {
  import opened Protocol

  datatype Trace<W> = Trace(w: W, out: seq<Effect>)

  /** The world after `events`, handled in order from `w`, and every effect they produced. */
  function Run<W, E>(step: (W, E) -> Trace<W>, w: W, events: seq<E>): Trace<W>
    decreases |events|
  {
    if events == [] then Trace(w, [])
    else
      var first := step(w, events[0]);
      var rest := Run(step, first.w, events[1..]);
      Trace(rest.w, first.out + rest.out)
  }

  /** Running a + b is running a, then b from where a left off. */
  lemma {:induction false} RunAppend<W, E>(step: (W, E) -> Trace<W>, w: W, a: seq<E>, b: seq<E>)
    ensures Run(step, w, a + b) ==
      var ra := Run(step, w, a);
      var rb := Run(step, ra.w, b);
      Trace(rb.w, ra.out + rb.out)
    decreases |a|
  {
    if a == [] {
      assert a + b == b;
    } else {
      var first := step(w, a[0]);
      assert (a + b)[0] == a[0];
      assert (a + b)[1..] == a[1..] + b;
      RunAppend(step, first.w, a[1..], b);
    }
  }

  /** A run of one event is that event's step. */
  lemma RunOne<W, E>(step: (W, E) -> Trace<W>, w: W, e: E)
    ensures Run(step, w, [e]) == step(w, e)
  {
    assert [e][1..] == [];
    assert step(w, e).out + [] == step(w, e).out;
  }

  /** A run of two events whose steps are known. */
  lemma RunTwo<W, E>(step: (W, E) -> Trace<W>, w0: W, e1: E, e2: E, t1: Trace<W>, t2: Trace<W>)
    requires step(w0, e1) == t1 && step(t1.w, e2) == t2
    ensures Run(step, w0, [e1, e2]) == Trace(t2.w, t1.out + t2.out)
  {
    assert [e1, e2] == [e1] + [e2];
    RunAppend(step, w0, [e1], [e2]);
    RunOne(step, w0, e1);
    RunOne(step, t1.w, e2);
  }

  /** A run of three events whose steps are known. */
  lemma RunThree<W, E>(step: (W, E) -> Trace<W>, w0: W, e1: E, e2: E, e3: E, t1: Trace<W>, t2: Trace<W>, t3: Trace<W>)
    requires step(w0, e1) == t1 && step(t1.w, e2) == t2 && step(t2.w, e3) == t3
    ensures Run(step, w0, [e1, e2, e3]) == Trace(t3.w, t1.out + (t2.out + t3.out))
  {
    assert [e1, e2, e3] == [e1] + [e2, e3];
    RunAppend(step, w0, [e1], [e2, e3]);
    RunOne(step, w0, e1);
    RunTwo(step, t1.w, e2, e3, t2, t3);
  }
}

=== FILE: step_capture.dfy ===
/**
 * The accumulating controller (good_file.py): START sends the first step
 * command; each "MF" asks the sensor for a measurement two seconds later;
 * each 64-field sensor line is decoded and its points, projected around the
 * azimuth C * SC, are appended to one growing point cloud; C then counts the
 * capture, and either the next step command follows 100 ms later or, after
 * the last sample, "RM" sends the motor home and the controller waits for
 * "RF", reading nothing from the sensor meanwhile.
 */
module StepCapture {
  import opened Wrappers
  import opened HostNumerics
  import opened GridDecoder
  import opened PointProjector
  import opened Protocol
  import opened Runs

  /**
   * S samples, SC degrees per step, C captures so far, the transmission flag,
   * whether "RM" went out and "RF" is awaited, and the 3-D viewer's cloud.
   */
  datatype State = State(s: int, sc: real, c: int, active: bool, waitForRf: bool, graph: Cloud)

  const Initial: State := State(0, 0.0, 0, false, false, Cloud(0.0, []))

  datatype Outcome = Outcome(st: State, out: seq<Effect>)

  /**
   * A deferred callback firing: the step command goes out only while
   * transmission is active; the measurement request goes out unconditionally.
   */
  function Fire(host: Host, st: State, action: Action): (r: Outcome)
    ensures r.st == st
    ensures SentOn(r.out, Motor) == (if action == SendStep && st.active then [StepMessage(host, st.sc)] else [])
    ensures SentOn(r.out, Sensor) == (if action == SendMeasureRequest then [MeasureRequest] else [])
    ensures Scheduled(r.out) == [] && Displays(r.out) == []
  {
    FiltersOne(Send(Motor, StepMessage(host, st.sc)));
    FiltersOne(Send(Sensor, MeasureRequest));
    match action
    case SendStep =>
      if st.active then Outcome(st, [Send(Motor, StepMessage(host, st.sc))]) else Outcome(st, [])
    case SendMeasureRequest =>
      Outcome(st, [Send(Sensor, MeasureRequest)])
  }

  /**
   * START: a non-integer sample count only reports the error. An integer
   * restarts the count, activates transmission, stops waiting for "RF" and
   * sends one step command. The cloud is kept: points of earlier sweeps stay.
   */
  function Start(host: Host, st: State, parsed: Option<int>): (r: Outcome)
    requires parsed.Some? ==> parsed.value != 0
    ensures parsed.None? ==> r.st == st && SentOn(r.out, Motor) == [] && SentOn(r.out, Sensor) == []
    ensures parsed.Some? ==>
      && r.st == State(parsed.value, StepAngle(parsed.value), 0, true, false, st.graph)
      && SentOn(r.out, Motor) == [StepMessage(host, StepAngle(parsed.value))]
      && SentOn(r.out, Sensor) == []
    ensures r.st.graph == st.graph && Scheduled(r.out) == [] && Displays(r.out) == []
  {
    match parsed
    case None =>
      FiltersOne(Report(InvalidSampleCount));
      Outcome(st, [Report(InvalidSampleCount)])
    case Some(s) =>
      var started := State(s, StepAngle(s), 0, true, false, st.graph);
      var sent := Fire(host, started, SendStep).out;
      FiltersOne(Report(ScanStarted));
      FiltersAppend([Report(ScanStarted)], sent);
      Outcome(started, [Report(ScanStarted)] + sent)
  }

  /** The azimuth the viewer is centred on for the capture counted as number c: C * SC degrees. */
  function CaptureAngle(c: int, sc: real): real
  {
    (c as real) * sc
  }

  /** The points that grids captured one after another add, the first at capture count c. */
  function Projections(host: Host, grids: seq<Grid>, c: int, sc: real): seq<Point>
    decreases |grids|
  {
    if grids == [] then []
    else Project(host, grids[0], CaptureAngle(c, sc), SkipMissingOrNonPositive) + Projections(host, grids[1..], c + 1, sc)
  }

  /**
   * From `st` to `st2` the sweep parameters stay, C counts the captured grids
   * and the cloud grows by exactly their projections, in capture order.
   */
  predicate Captured(host: Host, st: State, st2: State, grids: seq<Grid>)
  {
    && st2.s == st.s && st2.sc == st.sc
    && st2.c == st.c + |grids|
    && st2.graph.points == st.graph.points + Projections(host, grids, st.c, st.sc)
  }

  lemma ProjectionsOne(host: Host, g: Grid, c: int, sc: real)
    ensures Projections(host, [g], c, sc) == Project(host, g, CaptureAngle(c, sc), SkipMissingOrNonPositive)
  {
    assert [g][1..] == [];
    assert Projections(host, [], c + 1, sc) == [];
  }

  /**
   * Recording one decoded grid: the viewer is centred on C * SC, the grid's
   * points (missing and non-positive cells dropped) are appended to the cloud,
   * and C counts the capture.
   */
  function Record(host: Host, st: State, g: Grid): (st2: State)
    ensures Captured(host, st, st2, [g])
    ensures st2 == st.(c := st.c + 1, graph := st2.graph)
    ensures st2.graph.azCenter == CaptureAngle(st.c, st.sc)
  {
    var graph := Accumulate(host, st.graph.(azCenter := CaptureAngle(st.c, st.sc)), g);
    ProjectionsOne(host, g, st.c, st.sc);
    st.(c := st.c + 1, graph := graph)
  }

  /**
   * One decoded grid is recorded and shown. With samples left the next step
   * command is scheduled in 100 ms; at exactly S captures "RM" goes to the
   * motor, transmission stops and "RF" is awaited; past S nothing is sent.
   */
  function Capture(host: Host, st: State, g: Grid): (r: Outcome)
    requires |g| == GridCells
    ensures Captured(host, st, r.st, [g]) && Displays(r.out) == [g]
    ensures r.st.graph == Record(host, st, g).graph
    ensures st.c + 1 < st.s ==>
      && r.st == Record(host, st, g)
      && SentOn(r.out, Motor) == [] && Scheduled(r.out) == [Schedule(100, SendStep)]
    ensures st.c + 1 == st.s ==>
      && r.st == Record(host, st, g).(active := false, waitForRf := true)
      && SentOn(r.out, Motor) == [ReturnHome] && Scheduled(r.out) == []
    ensures st.c + 1 > st.s ==>
      && r.st == Record(host, st, g)
      && SentOn(r.out, Motor) == [] && Scheduled(r.out) == []
    ensures SentOn(r.out, Sensor) == [] && Schedule(2000, SendMeasureRequest) !in r.out
  {
    var counted := Record(host, st, g);
    FiltersOne(Display(g));
    FiltersOne(Schedule(100, SendStep));
    FiltersOne(Send(Motor, ReturnHome));
    if counted.c < counted.s then
      FiltersAppend([Display(g)], [Schedule(100, SendStep)]);
      Outcome(counted, [Display(g), Schedule(100, SendStep)])
    else if counted.c == counted.s then
      FiltersAppend([Display(g)], [Send(Motor, ReturnHome)]);
      Outcome(counted.(active := false, waitForRf := true), [Display(g), Send(Motor, ReturnHome)])
    else
      Outcome(counted, [Display(g)])
  }

  /** The sensor read of a tick: a 64-field line is captured, anything else is dropped. */
  function Receive(host: Host, st: State, line: Option<string>): (r: Outcome)
    ensures line.Some? && Decode(host, line.value).Some? ==> r == Capture(host, st, Decode(host, line.value).value)
    ensures (line.None? || Decode(host, line.value).None?) ==> r.st == st && r.out == []
    ensures Captured(host, st, r.st, Displays(r.out))
    ensures SentOn(r.out, Sensor) == [] && Schedule(2000, SendMeasureRequest) !in r.out
  {
    match line
    case None => Outcome(st, [])
    case Some(data) =>
      match Decode(host, data)
      case None => Outcome(st, [])
      case Some(g) =>
        Capture(host, st, g)
  }

  datatype TickOutcome = TickOutcome(st: State, motor: Feed, sensor: Feed, out: seq<Effect>)

  /**
   * A tick not waiting for "RF", after a motor line other than "RF": "MF"
   * schedules a measurement request in 2000 ms, active or not; then the
   * sensor is read.
   */
  function Proceed(host: Host, st: State, line: Option<string>, sensor: Feed): (r: Outcome)
    ensures r.st == Receive(host, st, ReadLine(sensor).line).st
    ensures Schedule(2000, SendMeasureRequest) in r.out <==> line == Some(StepAck)
    ensures Displays(r.out) == Displays(Receive(host, st, ReadLine(sensor).line).out)
    ensures Scheduled(r.out) ==
      (if line == Some(StepAck) then [Schedule(2000, SendMeasureRequest)] else []) + Scheduled(Receive(host, st, ReadLine(sensor).line).out)
    ensures SentOn(r.out, Motor) == SentOn(Receive(host, st, ReadLine(sensor).line).out, Motor)
    ensures SentOn(r.out, Sensor) == []
  {
    var asked := if line == Some(StepAck) then [Schedule(2000, SendMeasureRequest)] else [];
    var received := Receive(host, st, ReadLine(sensor).line);
    FiltersOne(Schedule(2000, SendMeasureRequest));
    FiltersAppend(asked, received.out);
    Outcome(received.st, asked + received.out)
  }

  /**
   * One timer tick. While "RF" is awaited only the motor is read and only
   * "RF" clears the wait. Otherwise "RF" stops transmission and ends the tick
   * before the sensor is read; any other motor line goes on as in Proceed.
   */
  function Tick(host: Host, st: State, motor: Feed, sensor: Feed): (r: TickOutcome)
    ensures r.motor == ReadLine(motor).rest
    ensures st.waitForRf ==>
      && r.sensor == sensor && r.out == []
      && r.st == st.(waitForRf := ReadLine(motor).line != Some(Abort))
    ensures !st.waitForRf && ReadLine(motor).line == Some(Abort) ==>
      r.sensor == sensor && r.st == st.(active := false) && r.out == []
    ensures !st.waitForRf && ReadLine(motor).line != Some(Abort) ==>
      && r.sensor == ReadLine(sensor).rest
      && (Schedule(2000, SendMeasureRequest) in r.out <==> ReadLine(motor).line == Some(StepAck))
    ensures Captured(host, st, r.st, Displays(r.out))
  {
    var first := ReadLine(motor);
    if st.waitForRf then
      TickOutcome(st.(waitForRf := first.line != Some(Abort)), first.rest, sensor, [])
    else if first.line == Some(Abort) then
      TickOutcome(st.(active := false), first.rest, sensor, [])
    else
      var o := Proceed(host, st, first.line, sensor);
      TickOutcome(o.st, first.rest, ReadLine(sensor).rest, o.out)
  }

  /**
   * A tick neither awaiting "RF" nor reading it: the sensor line is handled as
   * in Receive, so a 64-field line is captured and displayed; "MF" adds
   * exactly one measurement request in 2000 ms; the motor link gets only what
   * the capture sends; the sensor link gets nothing.
   */
  lemma TickProceeds(host: Host, st: State, motor: Feed, sensor: Feed)
    requires !st.waitForRf && ReadLine(motor).line != Some(Abort)
    ensures var r := Tick(host, st, motor, sensor); var got := Receive(host, st, ReadLine(sensor).line);
      && r.st == got.st && Displays(r.out) == Displays(got.out)
      && Scheduled(r.out) == (if ReadLine(motor).line == Some(StepAck) then [Schedule(2000, SendMeasureRequest)] else []) + Scheduled(got.out)
      && SentOn(r.out, Motor) == SentOn(got.out, Motor) && SentOn(r.out, Sensor) == []
    ensures var d := ReadLine(sensor).line; var r := Tick(host, st, motor, sensor);
      d.Some? && Decode(host, d.value).Some? ==>
        var g := Decode(host, d.value).value;
        Displays(r.out) == [g] && r.st.graph == Record(host, st, g).graph && r.st.c == st.c + 1
    ensures var d := ReadLine(sensor).line; var r := Tick(host, st, motor, sensor);
      (d.None? || Decode(host, d.value).None?) ==> r.st == st && Displays(r.out) == [] && SentOn(r.out, Motor) == []
  {
  }

  // ---------------------------------------------------------------------------
  // Runs: the controller together with what its two links will return.

  datatype Event = Begin(parsed: Option<SampleCount>) | Timer(action: Action) | Poll | Arrive(link: LinkId, read: Option<string>)

  datatype World = World(st: State, motor: Feed, sensor: Feed)


  function Step(host: Host, w: World, e: Event): Trace<World>
  {
    match e
    case Begin(parsed) =>
      var o := Start(host, w.st, parsed);
      Trace(w.(st := o.st), o.out)
    case Timer(action) =>
      var o := Fire(host, w.st, action);
      Trace(w.(st := o.st), o.out)
    case Poll =>
      var t := Tick(host, w.st, w.motor, w.sensor);
      Trace(World(t.st, t.motor, t.sensor), t.out)
    case Arrive(link, read) =>
      if link == Motor then Trace(w.(motor := w.motor + [read]), [])
      else Trace(w.(sensor := w.sensor + [read]), [])
  }

  function Steps(host: Host): (World, Event) -> Trace<World>
  {
    (w, e) => Step(host, w, e)
  }

  /**
   * How the window is wired: an arriving line only joins its link's buffer; a
   * timer tick reads the motor link once and the sensor link only when it
   * neither awaits "RF" nor reads "RF"; START and the deferred callbacks read
   * neither, and a callback keeps the state.
   */
  lemma StepWiring(host: Host, w: World, e: Event)
    ensures var t := Step(host, w, e);
      && (e.Arrive? && e.link == Motor ==> t.w == w.(motor := w.motor + [e.read]) && t.out == [])
      && (e.Arrive? && e.link == Sensor ==> t.w == w.(sensor := w.sensor + [e.read]) && t.out == [])
      && (e.Poll? ==> t.w.motor == ReadLine(w.motor).rest)
      && (e.Poll? && (w.st.waitForRf || ReadLine(w.motor).line == Some(Abort)) ==> t.w.sensor == w.sensor)
      && (e.Poll? && !w.st.waitForRf && ReadLine(w.motor).line != Some(Abort) ==> t.w.sensor == ReadLine(w.sensor).rest)
      && (e.Timer? ==> t.w == w)
      && (e.Begin? ==> t.w.motor == w.motor && t.w.sensor == w.sensor)
  {
  }

  // ---------------------------------------------------------------------------
  // The cloud only grows.

  /** No event removes a point from the cloud, START included: every run keeps the old points as a prefix. */
  lemma {:induction false} CloudOnlyGrows(host: Host, w: World, events: seq<Event>)
    ensures w.st.graph.points <= Run(Steps(host), w, events).w.st.graph.points
    decreases |events|
  {
    if events != [] {
      var first := Step(host, w, events[0]);
      assert w.st.graph.points <= first.w.st.graph.points;
      CloudOnlyGrows(host, first.w, events[1..]);
    }
  }

  lemma {:induction false} ProjectionsAppend(host: Host, a: seq<Grid>, b: seq<Grid>, c: int, sc: real)
    ensures Projections(host, a + b, c, sc) == Projections(host, a, c, sc) + Projections(host, b, c + |a|, sc)
    decreases |a|
  {
    if a == [] {
      assert a + b == b;
    } else {
      assert (a + b)[0] == a[0];
      assert (a + b)[1..] == a[1..] + b;
      ProjectionsAppend(host, a[1..], b, c + 1, sc);
    }
  }

  lemma CapturedTrans(host: Host, st1: State, st2: State, st3: State, a: seq<Grid>, b: seq<Grid>)
    requires Captured(host, st1, st2, a) && Captured(host, st2, st3, b)
    ensures Captured(host, st1, st3, a + b)
  {
    ProjectionsAppend(host, a, b, st1.c, st1.sc);
  }

  /**
   * Between two STARTs the cloud is the old cloud followed by the projections
   * of the displayed grids, in display order, the k-th centred on azimuth
   * (C0 + k) * SC; C counts the displayed grids.
   */
  lemma {:induction false} RunCapturesInOrder(host: Host, w: World, events: seq<Event>)
    requires forall k :: 0 <= k < |events| ==> !events[k].Begin?
    ensures var t := Run(Steps(host), w, events);
      Captured(host, w.st, t.w.st, Displays(t.out))
    decreases |events|
  {
    if events != [] {
      assert !events[0].Begin?;
      var first := Step(host, w, events[0]);
      assert Captured(host, w.st, first.w.st, Displays(first.out)) by {
        if !events[0].Poll? {
          assert Displays(first.out) == [];
        }
      }
      RunCapturesInOrder(host, first.w, events[1..]);
      var rest := Run(Steps(host), first.w, events[1..]);
      CapturedTrans(host, w.st, first.w.st, rest.w.st, Displays(first.out), Displays(rest.out));
      FiltersAppend(first.out, rest.out);
    }
  }

  // ---------------------------------------------------------------------------
  // A full sweep captures every grid and ends waiting for "RF".

  /** The motor acknowledges a step, a tick reads it, the deferred measurement request fires. */
  function Ask(): seq<Event>
  {
    [Arrive(Motor, Some(StepAck)), Poll, Timer(SendMeasureRequest)]
  }

  /** The sensor sends its line, a tick reads it, the deferred step command fires. */
  function Deliver(line: string): seq<Event>
  {
    [Arrive(Sensor, Some(line)), Poll, Timer(SendStep)]
  }

  /** The sensor sends the last line and a tick reads it; after "RM" no step command is pending. */
  function Collect(line: string): seq<Event>
  {
    [Arrive(Sensor, Some(line)), Poll]
  }

  function Rounds(lines: seq<string>): seq<Event>
    decreases |lines|
  {
    if lines == [] then []
    else if |lines| == 1 then Ask() + Collect(lines[0])
    else Ask() + Deliver(lines[0]) + Rounds(lines[1..])
  }

  /** START with S, then one round per sensor line. */
  function Sweep(s: int, lines: seq<string>): seq<Event>
    requires s != 0
  {
    [Begin(Some(s))] + Rounds(lines)
  }

  /** Every line decodes to a grid. */
  predicate AllDecode(host: Host, lines: seq<string>)
  {
    forall k :: 0 <= k < |lines| ==> Decode(host, lines[k]).Some?
  }

  /** The grids of lines that all decode, in order. */
  function Grids(host: Host, lines: seq<string>): (gs: seq<Grid>)
    requires AllDecode(host, lines)
    ensures |gs| == |lines|
    ensures forall k :: 0 <= k < |lines| ==> gs[k] == Decode(host, lines[k]).value
    decreases |lines|
  {
    if lines == [] then [] else [Decode(host, lines[0]).value] + Grids(host, lines[1..])
  }

  lemma TickOnAck(host: Host, st: State)
    requires !st.waitForRf
    ensures Tick(host, st, [Some(StepAck)], []) == TickOutcome(st, [], [], [Schedule(2000, SendMeasureRequest)])
  {
    assert Receive(host, st, None) == Outcome(st, []);
  }

  lemma TickOnData(host: Host, st: State, line: string)
    requires !st.waitForRf && Decode(host, line).Some?
    ensures var cap := Capture(host, st, Decode(host, line).value);
      Tick(host, st, [], [Some(line)]) == TickOutcome(cap.st, [], [], cap.out)
  {
    assert line != "";
    assert ReadLine([Some(line)]) == ReadResult(Some(line), []);
    var cap := Capture(host, st, Decode(host, line).value);
    assert Receive(host, st, Some(line)) == cap;
    assert Proceed(host, st, None, [Some(line)]) == Outcome(cap.st, [] + cap.out);
  }

  lemma ArriveStep(host: Host, st: State, link: LinkId, line: Option<string>)
    ensures Steps(host)(World(st, [], []), Arrive(link, line)) ==
      Trace(if link == Motor then World(st, [line], []) else World(st, [], [line]), [])
  {
    assert [] + [line] == [line];
  }

  lemma AskPoll(host: Host, st: State)
    requires !st.waitForRf
    ensures Steps(host)(World(st, [Some(StepAck)], []), Poll) == Trace(World(st, [], []), [Schedule(2000, SendMeasureRequest)])
  {
    TickOnAck(host, st);
  }

  lemma AskRun(host: Host, st: State)
    requires !st.waitForRf
    ensures Run(Steps(host), World(st, [], []), Ask()) ==
      Trace(World(st, [], []), [Schedule(2000, SendMeasureRequest)] + [Send(Sensor, MeasureRequest)])
  {
    var w0 := World(st, [], []);
    var t1 := Trace(World(st, [Some(StepAck)], []), []);
    var t2 := Trace(w0, [Schedule(2000, SendMeasureRequest)]);
    var t3 := Trace(w0, [Send(Sensor, MeasureRequest)]);
    ArriveStep(host, st, Motor, Some(StepAck));
    AskPoll(host, st);
    RunThree(Steps(host), w0, Arrive(Motor, Some(StepAck)), Poll, Timer(SendMeasureRequest), t1, t2, t3);
  }

  lemma DeliverPoll(host: Host, st: State, line: string)
    requires !st.waitForRf && Decode(host, line).Some?
    ensures var cap := Capture(host, st, Decode(host, line).value);
      Steps(host)(World(st, [], [Some(line)]), Poll) == Trace(World(cap.st, [], []), cap.out)
  {
    TickOnData(host, st, line);
  }

  lemma DeliverRun(host: Host, st: State, line: string)
    requires !st.waitForRf && Decode(host, line).Some?
    ensures var cap := Capture(host, st, Decode(host, line).value);
      Run(Steps(host), World(st, [], []), Deliver(line)) ==
      Trace(World(cap.st, [], []), cap.out + Fire(host, cap.st, SendStep).out)
  {
    var cap := Capture(host, st, Decode(host, line).value);
    var w0 := World(st, [], []);
    var t1 := Trace(World(st, [], [Some(line)]), []);
    var t2 := Trace(World(cap.st, [], []), cap.out);
    var t3 := Trace(World(cap.st, [], []), Fire(host, cap.st, SendStep).out);
    ArriveStep(host, st, Sensor, Some(line));
    DeliverPoll(host, st, line);
    RunThree(Steps(host), w0, Arrive(Sensor, Some(line)), Poll, Timer(SendStep), t1, t2, t3);
    assert t1.out + (t2.out + t3.out) == cap.out + Fire(host, cap.st, SendStep).out;
  }

  /** A round's run: the request, the capture's effects, then the deferred step command's. */
  lemma RoundRun(host: Host, st: State, line: string)
    requires !st.waitForRf && Decode(host, line).Some?
    ensures var cap := Capture(host, st, Decode(host, line).value);
      Run(Steps(host), World(st, [], []), Ask() + Deliver(line)) ==
      Trace(World(cap.st, [], []),
        ([Schedule(2000, SendMeasureRequest)] + [Send(Sensor, MeasureRequest)]) + (cap.out + Fire(host, cap.st, SendStep).out))
  {
    AskRun(host, st);
    DeliverRun(host, st, line);
    RunAppend(Steps(host), World(st, [], []), Ask(), Deliver(line));
  }

  lemma CollectRun(host: Host, st: State, line: string)
    requires !st.waitForRf && Decode(host, line).Some?
    ensures var cap := Capture(host, st, Decode(host, line).value);
      Run(Steps(host), World(st, [], []), Collect(line)) == Trace(World(cap.st, [], []), cap.out)
  {
    var cap := Capture(host, st, Decode(host, line).value);
    var t1 := Trace(World(st, [], [Some(line)]), []);
    var t2 := Trace(World(cap.st, [], []), cap.out);
    ArriveStep(host, st, Sensor, Some(line));
    DeliverPoll(host, st, line);
    RunTwo(Steps(host), World(st, [], []), Arrive(Sensor, Some(line)), Poll, t1, t2);
    assert t1.out + t2.out == cap.out;
  }

  /**
   * The last round, from an active controller with one sample left: the
   * measurement request goes out, the grid is recorded and shown, "RM" goes
   * to the motor and the controller waits for "RF".
   */
  lemma LastRoundCaptures(host: Host, st: State, line: string)
    requires st.active && !st.waitForRf && st.c + 1 == st.s && Decode(host, line).Some?
    ensures var t := Run(Steps(host), World(st, [], []), Ask() + Collect(line));
      var g := Decode(host, line).value;
      && t.w.motor == [] && t.w.sensor == []
      && t.w.st == Record(host, st, g).(active := false, waitForRf := true)
      && SentOn(t.out, Motor) == [ReturnHome]
      && SentOn(t.out, Sensor) == [MeasureRequest]
      && Displays(t.out) == [g]
  {
    var cap := Capture(host, st, Decode(host, line).value);
    var asked := [Schedule(2000, SendMeasureRequest)] + [Send(Sensor, MeasureRequest)];
    AskRun(host, st);
    CollectRun(host, st, line);
    RunAppend(Steps(host), World(st, [], []), Ask(), Collect(line));
    assert SentOn(asked, Motor) == [] && SentOn(asked, Sensor) == [MeasureRequest] && Displays(asked) == [] by {
      FiltersOne(Schedule(2000, SendMeasureRequest));
      FiltersOne(Send(Sensor, MeasureRequest));
      FiltersAppend([Schedule(2000, SendMeasureRequest)], [Send(Sensor, MeasureRequest)]);
    }
    FiltersAppend(asked, cap.out);
  }

  /** What a round with a sample left sends and shows. */
  lemma RoundFilters(host: Host, st: State, g: Grid)
    requires st.active && st.c < st.s && |g| == GridCells
    ensures var cap := Capture(host, st, g);
      var out := ([Schedule(2000, SendMeasureRequest)] + [Send(Sensor, MeasureRequest)]) + (cap.out + Fire(host, cap.st, SendStep).out);
      && SentOn(out, Motor) == (if st.c + 1 < st.s then [StepMessage(host, st.sc)] else [ReturnHome])
      && SentOn(out, Sensor) == [MeasureRequest]
      && Displays(out) == [g]
  {
    var cap := Capture(host, st, g);
    var fired := Fire(host, cap.st, SendStep);
    var asked := [Schedule(2000, SendMeasureRequest)] + [Send(Sensor, MeasureRequest)];
    assert SentOn(asked, Motor) == [] && SentOn(asked, Sensor) == [MeasureRequest] && Displays(asked) == [] by {
      FiltersOne(Schedule(2000, SendMeasureRequest));
      FiltersOne(Send(Sensor, MeasureRequest));
      FiltersAppend([Schedule(2000, SendMeasureRequest)], [Send(Sensor, MeasureRequest)]);
    }
    assert SentOn(cap.out + fired.out, Motor) == (if st.c + 1 < st.s then [StepMessage(host, st.sc)] else [ReturnHome]) by {
      FiltersAppend(cap.out, fired.out);
    }
    assert SentOn(cap.out + fired.out, Sensor) == [] && Displays(cap.out + fired.out) == [g] by {
      FiltersAppend(cap.out, fired.out);
    }
    FiltersAppend(asked, cap.out + fired.out);
  }

  /**
   * One round from an active controller with a sample left: the measurement
   * request goes out, the grid is recorded, and the motor gets the next step
   * command, or "RM" after the last sample.
   */
  lemma RoundCaptures(host: Host, st: State, line: string)
    requires st.active && !st.waitForRf && st.c < st.s && Decode(host, line).Some?
    ensures var t := Run(Steps(host), World(st, [], []), Ask() + Deliver(line));
      var g := Decode(host, line).value;
      && t.w.motor == [] && t.w.sensor == []
      && t.w.st == (if st.c + 1 < st.s then Record(host, st, g) else Record(host, st, g).(active := false, waitForRf := true))
      && SentOn(t.out, Motor) == (if st.c + 1 < st.s then [StepMessage(host, st.sc)] else [ReturnHome])
      && SentOn(t.out, Sensor) == [MeasureRequest]
      && Displays(t.out) == [g]
  {
    RoundRun(host, st, line);
    RoundFilters(host, st, Decode(host, line).value);
  }

  /** What the rounds of a sweep leave behind, from `st` with one sample left per line. */
  predicate Swept(host: Host, st: State, lines: seq<string>, t: Trace<World>)
    requires |lines| >= 1 && AllDecode(host, lines)
  {
    && t.w.motor == [] && t.w.sensor == []
    && t.w.st.c == st.s && !t.w.st.active && t.w.st.waitForRf
    && t.w.st.graph.azCenter == CaptureAngle(st.s - 1, st.sc)
    && Captured(host, st, t.w.st, Grids(host, lines))
    && SentOn(t.out, Motor) == Copies(StepMessage(host, st.sc), |lines| - 1) + [ReturnHome]
    && SentOn(t.out, Sensor) == Copies(MeasureRequest, |lines|)
    && Displays(t.out) == Grids(host, lines)
  }

  /** The first round of the rest, when more than one sample is left. */
  lemma RoundContinues(host: Host, st: State, line: string)
    requires st.active && !st.waitForRf && st.c + 1 < st.s && Decode(host, line).Some?
    ensures var r1 := Run(Steps(host), World(st, [], []), Ask() + Deliver(line));
      && r1.w == World(r1.w.st, [], [])
      && r1.w.st.c == st.c + 1 && r1.w.st.active && !r1.w.st.waitForRf
      && Captured(host, st, r1.w.st, [Decode(host, line).value])
      && SentOn(r1.out, Motor) == [StepMessage(host, st.sc)]
      && SentOn(r1.out, Sensor) == [MeasureRequest]
      && Displays(r1.out) == [Decode(host, line).value]
  {
    RoundCaptures(host, st, line);
  }

  /** The last round. */
  lemma {:induction false} RoundsCaptureLast(host: Host, st: State, lines: seq<string>)
    requires |lines| == 1 && AllDecode(host, lines)
    requires st.active && !st.waitForRf && st.c + 1 == st.s
    ensures Swept(host, st, lines, Run(Steps(host), World(st, [], []), Rounds(lines)))
  {
    var g := Decode(host, lines[0]).value;
    assert Grids(host, lines) == [g] by {
      assert Grids(host, lines[1..]) == [];
    }
    LastRoundCaptures(host, st, lines[0]);
  }

  /** A continuing round followed by the rest of the sweep is the whole sweep's outcome. */
  lemma SweptCons(host: Host, st: State, lines: seq<string>, r1: Trace<World>, r2: Trace<World>)
    requires |lines| >= 2 && AllDecode(host, lines) && AllDecode(host, lines[1..])
    requires var g := Decode(host, lines[0]).value;
      && r1.w.st.c == st.c + 1
      && Captured(host, st, r1.w.st, [g])
      && SentOn(r1.out, Motor) == [StepMessage(host, st.sc)]
      && SentOn(r1.out, Sensor) == [MeasureRequest]
      && Displays(r1.out) == [g]
    requires Swept(host, r1.w.st, lines[1..], r2)
    ensures Swept(host, st, lines, Trace(r2.w, r1.out + r2.out))
  {
    var g := Decode(host, lines[0]).value;
    assert Grids(host, lines) == [g] + Grids(host, lines[1..]);
    CapturedTrans(host, st, r1.w.st, r2.w.st, [g], Grids(host, lines[1..]));
    FiltersAppend(r1.out, r2.out);
    assert Copies(StepMessage(host, st.sc), |lines| - 1) ==
      [StepMessage(host, st.sc)] + Copies(StepMessage(host, st.sc), |lines| - 2);
  }

  /**
   * From an active controller with exactly one sample left per line, the
   * rounds record every grid, send a step command after each capture but the
   * last, then "RM", and leave the controller waiting for "RF".
   */
  lemma {:induction false} RoundsCapture(host: Host, st: State, lines: seq<string>)
    requires |lines| >= 1 && AllDecode(host, lines)
    requires st.active && !st.waitForRf && st.c + |lines| == st.s
    ensures Swept(host, st, lines, Run(Steps(host), World(st, [], []), Rounds(lines)))
    decreases |lines|
  {
    if |lines| == 1 {
      RoundsCaptureLast(host, st, lines);
    } else {
      var w := World(st, [], []);
      var round := Ask() + Deliver(lines[0]);
      var r1 := Run(Steps(host), w, round);
      RoundContinues(host, st, lines[0]);
      assert AllDecode(host, lines[1..]) by {
        forall k | 0 <= k < |lines[1..]|
          ensures Decode(host, lines[1..][k]).Some?
        {
          assert lines[1..][k] == lines[k + 1];
        }
      }
      var r2 := Run(Steps(host), r1.w, Rounds(lines[1..]));
      assert Run(Steps(host), w, Rounds(lines)) == Trace(r2.w, r1.out + r2.out) by {
        assert Rounds(lines) == round + Rounds(lines[1..]);
        RunAppend(Steps(host), w, round, Rounds(lines[1..]));
      }
      RoundsCapture(host, r1.w.st, lines[1..]);
      SweptCons(host, st, lines, r1, r2);
    }
  }

  /**
   * A sweep of S >= 1 samples whose S sensor lines all decode: S step
   * commands go out (one at START, one after each capture but the last),
   * then "RM"; S measurement requests go to the sensor; the S grids are
   * shown in order and appended to the cloud that was already there, the
   * k-th centred on k * SC; the controller ends with C = S, transmission
   * off and waiting for "RF".
   */
  lemma SweepCapturesEveryGrid(host: Host, st: State, s: int, lines: seq<string>)
    requires s >= 1 && |lines| == s && AllDecode(host, lines)
    ensures var t := Run(Steps(host), World(st, [], []), Sweep(s, lines));
      var sc := StepAngle(s);
      && t.w.st == State(s, sc, s, false, true,
           Cloud(CaptureAngle(s - 1, sc), st.graph.points + Projections(host, Grids(host, lines), 0, sc)))
      && SentOn(t.out, Motor) == Copies(StepMessage(host, sc), s) + [ReturnHome]
      && SentOn(t.out, Sensor) == Copies(MeasureRequest, s)
      && Displays(t.out) == Grids(host, lines)
  {
    var w := World(st, [], []);
    var sc := StepAngle(s);
    var started := State(s, sc, 0, true, false, st.graph);
    var r1 := Run(Steps(host), w, [Begin(Some(s))]);
    assert r1.w == World(started, [], []) && SentOn(r1.out, Motor) == [StepMessage(host, sc)] by {
      RunOne(Steps(host), w, Begin(Some(s)));
    }
    assert SentOn(r1.out, Sensor) == [] && Displays(r1.out) == [] by {
      RunOne(Steps(host), w, Begin(Some(s)));
    }
    var r2 := Run(Steps(host), r1.w, Rounds(lines));
    assert Swept(host, started, lines, r2) by {
      RoundsCapture(host, started, lines);
    }
    assert Run(Steps(host), w, Sweep(s, lines)) == Trace(r2.w, r1.out + r2.out) by {
      RunAppend(Steps(host), w, [Begin(Some(s))], Rounds(lines));
    }
    assert r2.w.st == State(s, sc, s, false, true,
             Cloud(CaptureAngle(s - 1, sc), st.graph.points + Projections(host, Grids(host, lines), 0, sc)));
    SweepTotals(StepMessage(host, sc), s, Grids(host, lines), r1.out, r2.out);
  }

  /** START's one step command followed by the rounds' lines and grids gives the sweep's. */
  lemma SweepTotals(msg: string, s: int, gs: seq<Grid>, o1: seq<Effect>, o2: seq<Effect>)
    requires s >= 1
    requires SentOn(o1, Motor) == [msg] && SentOn(o1, Sensor) == [] && Displays(o1) == []
    requires SentOn(o2, Motor) == Copies(msg, s - 1) + [ReturnHome]
    requires SentOn(o2, Sensor) == Copies(MeasureRequest, s) && Displays(o2) == gs
    ensures SentOn(o1 + o2, Motor) == Copies(msg, s) + [ReturnHome]
    ensures SentOn(o1 + o2, Sensor) == Copies(MeasureRequest, s)
    ensures Displays(o1 + o2) == gs
  {
    FiltersAppend(o1, o2);
    CopiesAppend(msg, 1, s - 1);
  }

  // ---------------------------------------------------------------------------
  // Nothing moves the motor before START.

  /** With transmission off and at least S captures counted, no event but START commands the motor. */
  lemma IdleStep(host: Host, w: World, e: Event)
    requires !e.Begin? && !w.st.active && w.st.c >= w.st.s
    ensures var t := Step(host, w, e);
      SentOn(t.out, Motor) == [] && !t.w.st.active && t.w.st.c >= t.w.st.s
  {
    if e.Poll? && !w.st.waitForRf && ReadLine(w.motor).line != Some(Abort) {
      var line := ReadLine(w.motor).line;
      var asked := if line == Some(StepAck) then [Schedule(2000, SendMeasureRequest)] else [];
      var received := Receive(host, w.st, ReadLine(w.sensor).line);
      FiltersOne(Schedule(2000, SendMeasureRequest));
      FiltersAppend(asked, received.out);
    }
  }

  lemma {:induction false} IdleRun(host: Host, w: World, events: seq<Event>)
    requires forall k :: 0 <= k < |events| ==> !events[k].Begin?
    requires !w.st.active && w.st.c >= w.st.s
    ensures SentOn(Run(Steps(host), w, events).out, Motor) == []
    decreases |events|
  {
    if events != [] {
      var first := Step(host, w, events[0]);
      IdleStep(host, w, events[0]);
      IdleRun(host, first.w, events[1..]);
      FiltersAppend(first.out, Run(Steps(host), first.w, events[1..]).out);
    }
  }

  /** Before START no line on either link makes the controller command the motor. */
  lemma NoMotorCommandBeforeStart(host: Host, motor: Feed, sensor: Feed, events: seq<Event>)
    requires forall k :: 0 <= k < |events| ==> !events[k].Begin?
    ensures SentOn(Run(Steps(host), World(Initial, motor, sensor), events).out, Motor) == []
  {
    IdleRun(host, World(Initial, motor, sensor), events);
  }
}

=== FILE: stepper.dfy ===
/**
 * The motor-only step loop (test_Algorism.py): START sends the first step
 * command; every step acknowledgement "MF" counts a step and, while steps
 * remain, asks for the next command three seconds later; "RF" stops the
 * loop, and a deferred command that fires after that sends nothing.
 */
module Stepper {
  import opened Wrappers
  import opened HostNumerics
  import opened Protocol
  import opened Runs

  /** S samples, C steps acknowledged, SC degrees per step, and the transmission flag. */
  datatype State = State(s: int, c: int, sc: real, active: bool)

  const Initial: State := State(0, 0, 0.0, false)

  datatype Outcome = Outcome(st: State, out: seq<Effect>)

  /** The deferred step command: sent only while transmission is active. */
  function SendStepIfActive(host: Host, st: State): (r: Outcome)
    ensures r.st == st
    ensures st.active ==> r.out == [Send(Motor, StepMessage(host, st.sc))]
    ensures !st.active ==> r.out == []
  {
    if st.active then Outcome(st, [Send(Motor, StepMessage(host, st.sc))]) else Outcome(st, [])
  }

  /**
   * START with the sample count as parsed from the text field (None where
   * int() raised): nothing is sent and nothing changes for a non-integer; an
   * integer restarts the count and sends exactly one step command.
   */
  function Start(host: Host, st: State, parsed: Option<int>): (r: Outcome)
    requires parsed.Some? ==> parsed.value != 0
    ensures parsed.None? ==> r.st == st && SentOn(r.out, Motor) == [] && Scheduled(r.out) == []
    ensures parsed.Some? ==>
      && r.st == State(parsed.value, 0, StepAngle(parsed.value), true)
      && SentOn(r.out, Motor) == [StepMessage(host, StepAngle(parsed.value))]
      && Scheduled(r.out) == []
  {
    match parsed
    case None => Outcome(st, [Report(InvalidSampleCount)])
    case Some(s) =>
      var started := State(s, 0, StepAngle(s), true);
      var sent := SendStepIfActive(host, started).out;
      FiltersOne(sent[0]);
      FiltersOne(Report(ScanStarted));
      FiltersAppend(sent, [Report(ScanStarted)]);
      Outcome(started, sent + [Report(ScanStarted)])
  }

  datatype TickOutcome = TickOutcome(st: State, feed: Feed, out: seq<Effect>)

  /**
   * One poll of the link. "RF" wins: it stops transmission and is not taken
   * as a step. "MF" counts only while active; after it, a remaining step gets
   * one deferred command, the last step ends transmission. Anything else,
   * and an empty read, changes nothing.
   */
  function Tick(st: State, feed: Feed): (r: TickOutcome)
    ensures r.feed == ReadLine(feed).rest
    ensures ReadLine(feed).line == Some(Abort) ==> r.st == st.(active := false) && r.out == []
    ensures ReadLine(feed).line == Some(StepAck) && st.active ==>
      && r.st.c == st.c + 1 && r.st.s == st.s && r.st.sc == st.sc
      && (st.c + 1 < st.s ==> r.st.active && r.out == [Schedule(3000, SendStep)])
      && (st.c + 1 >= st.s ==> !r.st.active && r.out == [])
    ensures ReadLine(feed).line != Some(Abort) && !(ReadLine(feed).line == Some(StepAck) && st.active) ==>
      r.st == st && r.out == []
  {
    var read := ReadLine(feed);
    if read.line == Some(Abort) then
      TickOutcome(st.(active := false), read.rest, [])
    else if st.active && read.line == Some(StepAck) then
      var counted := st.(c := st.c + 1);
      if counted.c < counted.s then TickOutcome(counted, read.rest, [Schedule(3000, SendStep)])
      else TickOutcome(counted.(active := false), read.rest, [])
    else
      TickOutcome(st, read.rest, [])
  }

  // ---------------------------------------------------------------------------
  // Runs: the controller together with what its link will return.

  /** START, a timer callback firing, a poll tick, or the next read of the link being decided. */
  datatype Event = Begin(parsed: Option<SampleCount>) | Timer | Poll | Arrive(read: Option<string>)

  datatype World = World(st: State, feed: Feed)

  function Step(host: Host, w: World, e: Event): Trace<World>
  {
    match e
    case Begin(parsed) =>
      var o := Start(host, w.st, parsed);
      Trace(w.(st := o.st), o.out)
    case Timer =>
      var o := SendStepIfActive(host, w.st);
      Trace(w.(st := o.st), o.out)
    case Poll =>
      var t := Tick(w.st, w.feed);
      Trace(World(t.st, t.feed), t.out)
    case Arrive(read) =>
      Trace(w.(feed := w.feed + [read]), [])
  }

  function Steps(host: Host): (World, Event) -> Trace<World>
  {
    (w, e) => Step(host, w, e)
  }

  /**
   * How the window is wired: an arriving line only joins the link's buffer,
   * only a timer tick reads the link, and the button and the deferred step
   * command leave the buffer alone.
   */
  lemma StepWiring(host: Host, w: World, e: Event)
    ensures var t := Step(host, w, e);
      && (e.Arrive? ==> t.w == w.(feed := w.feed + [e.read]) && t.out == [])
      && (e.Poll? ==> t.w.feed == ReadLine(w.feed).rest)
      && (e.Begin? || e.Timer? ==> t.w.feed == w.feed)
  {
  }

  // ---------------------------------------------------------------------------
  // The count never passes S.

  /** C is never negative; with S >= 1 it never exceeds S, and stays below S while transmitting. */
  predicate Bounded(st: State)
  {
    && st.c >= 0
    && (st.s >= 1 ==> st.c <= st.s)
    && (st.s >= 1 && st.active ==> st.c < st.s)
  }

  /** From the initial state, or any bounded one, every run keeps C within bounds. */
  lemma {:induction false} RunStaysBounded(host: Host, w: World, events: seq<Event>)
    requires Bounded(w.st)
    ensures Bounded(Run(Steps(host), w, events).w.st)
    decreases |events|
  {
    if events != [] {
      var first := Step(host, w, events[0]);
      assert Bounded(first.w.st);
      RunStaysBounded(host, first.w, events[1..]);
    }
  }

  lemma InitialBounded()
    ensures Bounded(Initial)
  {
  }

  // ---------------------------------------------------------------------------
  // After RF, nothing more happens until the next START.

  /**
   * Once transmission is inactive, no run without START changes the state or
   * sends anything on the motor link: pending deferred commands are harmless.
   */
  lemma {:induction false} InactiveIsSilent(host: Host, w: World, events: seq<Event>)
    requires forall k :: 0 <= k < |events| ==> !events[k].Begin?
    requires !w.st.active
    ensures Run(Steps(host), w, events).w.st == w.st
    ensures SentOn(Run(Steps(host), w, events).out, Motor) == []
    decreases |events|
  {
    if events != [] {
      assert !events[0].Begin?;
      var first := Step(host, w, events[0]);
      assert first.w.st == w.st && SentOn(first.out, Motor) == [];
      InactiveIsSilent(host, first.w, events[1..]);
      FiltersAppend(first.out, Run(Steps(host), first.w, events[1..]).out);
    }
  }

  // ---------------------------------------------------------------------------
  // A full sweep sends exactly S step commands.

  /** One step of the loop: the acknowledgement arrives, is polled, and the deferred command fires. */
  function Round(): seq<Event>
  {
    [Arrive(Some(StepAck)), Poll, Timer]
  }

  function Rounds(n: nat): seq<Event>
  {
    if n == 0 then [] else Round() + Rounds(n - 1)
  }

  /** START, then S acknowledgements each polled, with every deferred command firing before the next. */
  function Sweep(s: int): seq<Event>
    requires s >= 1
  {
    [Begin(Some(s))] + Rounds(s - 1) + [Arrive(Some(StepAck)), Poll]
  }

  /** One round from an active loop with a step left: C counts it and the next command goes out. */
  lemma RoundAdvances(host: Host, st: State)
    requires st.active && st.c + 1 < st.s
    ensures Run(Steps(host), World(st, []), Round()) ==
      Trace(World(st.(c := st.c + 1), []), [Schedule(3000, SendStep), Send(Motor, StepMessage(host, st.sc))])
  {
    var w2 := World(st.(c := st.c + 1), []);
    var t1 := Trace(World(st, [Some(StepAck)]), []);
    var t2 := Trace(w2, [Schedule(3000, SendStep)]);
    var t3 := Trace(w2, [Send(Motor, StepMessage(host, st.sc))]);
    assert Steps(host)(World(st, []), Arrive(Some(StepAck))) == t1 by {
      assert [] + [Some(StepAck)] == [Some(StepAck)];
    }
    assert Steps(host)(t1.w, Poll) == t2;
    assert Steps(host)(t2.w, Timer) == t3;
    RunThree(Steps(host), World(st, []), Arrive(Some(StepAck)), Poll, Timer, t1, t2, t3);
    assert t1.out + (t2.out + t3.out) == [Schedule(3000, SendStep), Send(Motor, StepMessage(host, st.sc))];
  }

  /** After n rounds from `st`: C advanced by n, n step commands sent, n commands deferred by 3000 ms. */
  predicate Advanced(host: Host, st: State, n: nat, t: Trace<World>)
  {
    && t.w == World(st.(c := st.c + n), [])
    && SentOn(t.out, Motor) == Copies(StepMessage(host, st.sc), n)
    && |Scheduled(t.out)| == n
    && forall j :: 0 <= j < n ==> Scheduled(t.out)[j] == Schedule(3000, SendStep)
  }

  /** What one round's output contributes to the motor filter and the timer filter. */
  lemma RoundFilters(msg: string)
    ensures SentOn([Schedule(3000, SendStep), Send(Motor, msg)], Motor) == [msg]
    ensures Scheduled([Schedule(3000, SendStep), Send(Motor, msg)]) == [Schedule(3000, SendStep)]
  {
    FiltersOne(Schedule(3000, SendStep));
    FiltersOne(Send(Motor, msg));
    FiltersAppend([Schedule(3000, SendStep)], [Send(Motor, msg)]);
    assert [Schedule(3000, SendStep), Send(Motor, msg)] == [Schedule(3000, SendStep)] + [Send(Motor, msg)];
  }

  lemma AdvancedCons(host: Host, st: State, n: nat, r1: Trace<World>, r2: Trace<World>)
    requires n >= 1
    requires r1.w == World(st.(c := st.c + 1), [])
    requires r1.out == [Schedule(3000, SendStep), Send(Motor, StepMessage(host, st.sc))]
    requires Advanced(host, r1.w.st, n - 1, r2)
    ensures Advanced(host, st, n, Trace(r2.w, r1.out + r2.out))
  {
    var msg := StepMessage(host, st.sc);
    assert r1.w.st.sc == st.sc;
    RoundFilters(msg);
    FiltersAppend(r1.out, r2.out);
    assert SentOn(r1.out + r2.out, Motor) == [msg] + Copies(msg, n - 1);
    assert Copies(msg, n) == [msg] + Copies(msg, n - 1);
    var sched := Scheduled(r1.out + r2.out);
    assert sched == [Schedule(3000, SendStep)] + Scheduled(r2.out);
    assert r1.w.st.(c := r1.w.st.c + (n - 1)) == st.(c := st.c + n);
  }

  lemma {:induction false} RoundsAdvance(host: Host, st: State, n: nat)
    requires st.active && st.c + n < st.s
    ensures Advanced(host, st, n, Run(Steps(host), World(st, []), Rounds(n)))
    decreases n
  {
    var w := World(st, []);
    if n == 0 {
      assert Rounds(0) == [];
      assert st.(c := st.c + 0) == st;
    } else {
      var r1 := Run(Steps(host), w, Round());
      var r2 := Run(Steps(host), r1.w, Rounds(n - 1));
      assert Run(Steps(host), w, Rounds(n)) == Trace(r2.w, r1.out + r2.out) by {
        assert Rounds(n) == Round() + Rounds(n - 1);
        RunAppend(Steps(host), w, Round(), Rounds(n - 1));
      }
      RoundAdvances(host, st);
      RoundsAdvance(host, st.(c := st.c + 1), n - 1);
      AdvancedCons(host, st, n, r1, r2);
    }
  }

  /** START from any state with nothing pending on the link. */
  lemma BeginStarts(host: Host, st: State, s: int)
    requires s != 0
    ensures var t := Run(Steps(host), World(st, []), [Begin(Some(s))]);
      && t.w == World(State(s, 0, StepAngle(s), true), [])
      && SentOn(t.out, Motor) == [StepMessage(host, StepAngle(s))] && Scheduled(t.out) == []
  {
    RunOne(Steps(host), World(st, []), Begin(Some(s)));
  }

  /** The last acknowledgement, read by a tick, ends transmission and sends nothing. */
  lemma LastRound(host: Host, st: State)
    requires st.active && st.c + 1 == st.s
    ensures Run(Steps(host), World(st, []), [Arrive(Some(StepAck)), Poll]) ==
      Trace(World(st.(c := st.s, active := false), []), [])
  {
    var t1 := Trace(World(st, [Some(StepAck)]), []);
    var t2 := Trace(World(st.(c := st.s, active := false), []), []);
    assert Steps(host)(World(st, []), Arrive(Some(StepAck))) == t1 by {
      assert [] + [Some(StepAck)] == [Some(StepAck)];
    }
    assert Steps(host)(t1.w, Poll) == t2;
    RunTwo(Steps(host), World(st, []), Arrive(Some(StepAck)), Poll, t1, t2);
  }

  /** The sweep's three parts together: START's command, the rounds' commands, nothing from the last. */
  lemma SweepOutputs(msg: string, s: int, oa: seq<Effect>, ob: seq<Effect>)
    requires s >= 1
    requires SentOn(oa, Motor) == [msg] && Scheduled(oa) == []
    requires SentOn(ob, Motor) == Copies(msg, s - 1) && |Scheduled(ob)| == s - 1
    ensures SentOn(oa + ob, Motor) == Copies(msg, s)
    ensures |Scheduled(oa + ob)| == s - 1
  {
    FiltersAppend(oa, ob);
    CopiesAppend(msg, 1, s - 1);
  }

  /**
   * Given S >= 1 acknowledgements and every deferred command firing while
   * active, exactly S step commands go out (one at START, S - 1 deferred),
   * C ends at S and transmission stops.
   */
  lemma SweepSendsEveryStep(host: Host, st: State, s: int)
    requires s >= 1
    ensures var t := Run(Steps(host), World(st, []), Sweep(s));
      && t.w.st == State(s, s, StepAngle(s), false)
      && SentOn(t.out, Motor) == Copies(StepMessage(host, StepAngle(s)), s)
      && |Scheduled(t.out)| == s - 1
  {
    var sc := StepAngle(s);
    var msg := StepMessage(host, sc);
    var w := World(st, []);
    var a := [Begin(Some(s))];
    var b := Rounds(s - 1);
    var c := [Arrive(Some(StepAck)), Poll];
    var started := State(s, 0, sc, true);
    var ra := Run(Steps(host), w, a);
    var rb := Run(Steps(host), ra.w, b);
    var rc := Run(Steps(host), rb.w, c);
    assert ra.w == World(started, []) && SentOn(ra.out, Motor) == [msg] && Scheduled(ra.out) == [] by {
      BeginStarts(host, st, s);
    }
    assert rb.w == World(started.(c := s - 1), []) && SentOn(rb.out, Motor) == Copies(msg, s - 1) && |Scheduled(rb.out)| == s - 1 by {
      RoundsAdvance(host, started, s - 1);
    }
    assert rc.w.st == State(s, s, sc, false) && rc.out == [] by {
      LastRound(host, started.(c := s - 1));
    }
    assert Run(Steps(host), w, Sweep(s)) == Trace(rc.w, ra.out + rb.out + rc.out) by {
      assert Sweep(s) == a + b + c;
      RunAppend(Steps(host), w, a, b);
      RunAppend(Steps(host), w, a + b, c);
    }
    assert ra.out + rb.out + rc.out == ra.out + rb.out;
    SweepOutputs(msg, s, ra.out, rb.out);
  }
}

=== FILE: sweep_measure.dfy ===
/**
 * The three-phase controller (um1.py): the motor sweeps S steps, each "MF"
 * counted while the motor is active and followed three seconds later by the
 * next step command; after the last step the sensor is told to start
 * measuring; each 64-field sensor line becomes the buffered grid and is
 * replotted; "measure done" replots a complete buffer and tells the motor to
 * reset its angle; "reset done", when it comes on the second motor read of a
 * tick, finishes the process.
 */
module SweepMeasure {
  import opened Wrappers
  import opened HostNumerics
  import opened GridDecoder
  import opened PointProjector
  import opened Protocol
  import opened Runs

  /**
   * S samples, C steps counted, SC degrees per step, the two activity flags,
   * the last decoded grid, and what the 3-D viewer shows (its azimuth center
   * is never moved from FixedCenter).
   */
  datatype State = State(
    s: int, c: int, sc: real,
    motorActive: bool, measureActive: bool,
    buffer: Grid, shown: seq<Point>)

  const Initial: State := State(0, 0, 0.0, false, false, [], [])

  datatype Outcome = Outcome(st: State, out: seq<Effect>)

  /** The (deferred) step command. It checks no flag: it always sends, even after "RF". */
  function SendStepCommand(host: Host, st: State): (r: Outcome)
    ensures r.st == st
    ensures SentOn(r.out, Motor) == [StepMessage(host, st.sc)]
    ensures SentOn(r.out, Sensor) == [] && Scheduled(r.out) == [] && Displays(r.out) == []
  {
    FiltersOne(Send(Motor, StepMessage(host, st.sc)));
    Outcome(st, [Send(Motor, StepMessage(host, st.sc))])
  }

  /**
   * START ALL PROCESS: a non-integer sample count sends nothing and changes
   * nothing; an integer restarts the count, activates the motor, deactivates
   * measuring and sends exactly one step command. The buffer and the viewer
   * are left as they were.
   */
  function Start(host: Host, st: State, parsed: Option<int>): (r: Outcome)
    requires parsed.Some? ==> parsed.value != 0
    ensures parsed.None? ==> r.st == st && SentOn(r.out, Motor) == [] && SentOn(r.out, Sensor) == []
    ensures parsed.Some? ==>
      && r.st == st.(s := parsed.value, c := 0, sc := StepAngle(parsed.value), motorActive := true, measureActive := false)
      && SentOn(r.out, Motor) == [StepMessage(host, StepAngle(parsed.value))]
      && SentOn(r.out, Sensor) == []
    ensures Scheduled(r.out) == [] && Displays(r.out) == []
  {
    match parsed
    case None =>
      FiltersOne(Report(InvalidSampleCount));
      Outcome(st, [Report(InvalidSampleCount)])
    case Some(s) =>
      var started := st.(s := s, c := 0, sc := StepAngle(s), motorActive := true, measureActive := false);
      var sent := SendStepCommand(host, started).out;
      FiltersOne(Report(ScanStarted));
      FiltersAppend([Report(ScanStarted)], sent);
      Outcome(started, [Report(ScanStarted)] + sent)
  }

  /**
   * The first motor read of a tick. "MF" counts only while the motor is
   * active: with steps left it schedules one step command 3000 ms later,
   * after the last step it stops the motor, sends the measurement start,
   * empties the buffer and activates measuring. "RF" stops the motor. Any
   * other line, "reset done" included, is dropped.
   */
  function MotorPhase(st: State, line: Option<string>): (r: Outcome)
    ensures line == Some(StepAck) && st.motorActive ==>
      && r.st.c == st.c + 1 && r.st.s == st.s && r.st.sc == st.sc && r.st.shown == st.shown
      && (st.c + 1 < st.s ==>
            r.st == st.(c := st.c + 1) && r.out == [Schedule(3000, SendStep)])
      && (st.c + 1 >= st.s ==>
            && !r.st.motorActive && r.st.measureActive && r.st.buffer == []
            && r.out == [Send(Sensor, StartMeasure)])
    ensures line == Some(Abort) ==> r.st == st.(motorActive := false) && r.out == []
    ensures line != Some(Abort) && !(line == Some(StepAck) && st.motorActive) ==> r.st == st && r.out == []
    ensures Displays(r.out) == [] && r.st.shown == st.shown && Report(AllFinished) !in r.out
  {
    if line == Some(StepAck) && st.motorActive then
      var counted := st.(c := st.c + 1);
      FiltersOne(Schedule(3000, SendStep));
      FiltersOne(Send(Sensor, StartMeasure));
      if counted.c < counted.s then Outcome(counted, [Schedule(3000, SendStep)])
      else Outcome(counted.(motorActive := false, buffer := [], measureActive := true), [Send(Sensor, StartMeasure)])
    else if line == Some(Abort) then
      Outcome(st.(motorActive := false), [])
    else
      Outcome(st, [])
  }

  /**
   * "measure done": always exactly one "reset angle" on the motor link and
   * measuring cleared; the buffer is replotted only when it holds 64 cells.
   */
  function FinishMeasure(host: Host, st: State): (r: Outcome)
    ensures r.st.buffer == st.buffer && !r.st.measureActive
    ensures r.st.s == st.s && r.st.c == st.c && r.st.sc == st.sc && r.st.motorActive == st.motorActive
    ensures SentOn(r.out, Motor) == [ResetAngle] && SentOn(r.out, Sensor) == []
    ensures |st.buffer| == GridCells ==>
      Displays(r.out) == [st.buffer] && r.st.shown == Project(host, st.buffer, FixedCenter, SkipMissing)
    ensures |st.buffer| != GridCells ==> Displays(r.out) == [] && r.st.shown == st.shown
    ensures Scheduled(r.out) == [] && Report(AllFinished) !in r.out
  {
    var complete := |st.buffer| == GridCells;
    var shown := if complete then Replot(host, st.shown, st.buffer) else st.shown;
    var shownGrid := if complete then [Display(st.buffer)] else [];
    FiltersOne(Send(Motor, ResetAngle));
    FiltersOne(Display(st.buffer));
    FiltersAppend(shownGrid, [Send(Motor, ResetAngle)]);
    Outcome(st.(shown := shown, measureActive := false), shownGrid + [Send(Motor, ResetAngle)])
  }

  /**
   * A sensor line other than "measure done": with 64 fields its grid
   * replaces the buffer and is replotted; otherwise nothing changes.
   */
  function ReceiveData(host: Host, st: State, data: string): (r: Outcome)
    ensures Decode(host, data).Some? ==>
      var g := Decode(host, data).value;
      r.st == st.(buffer := g, shown := Project(host, g, FixedCenter, SkipMissing)) && r.out == [Display(g)]
    ensures Decode(host, data).None? ==> r.st == st && r.out == []
    ensures Scheduled(r.out) == [] && SentOn(r.out, Motor) == [] && SentOn(r.out, Sensor) == []
  {
    match Decode(host, data)
    case None => Outcome(st, [])
    case Some(g) =>
      FiltersOne(Display(g));
      Outcome(st.(buffer := g, shown := Replot(host, st.shown, g)), [Display(g)])
  }

  /** The sensor read of a tick. */
  function SensorPhase(host: Host, st: State, line: Option<string>): (r: Outcome)
    ensures line.None? ==> r.st == st && r.out == []
    ensures line == Some(MeasureDone) ==> r == FinishMeasure(host, st)
    ensures line.Some? && line != Some(MeasureDone) ==> r == ReceiveData(host, st, line.value)
    ensures || (Displays(r.out) == [] && r.st.shown == st.shown)
            || (Displays(r.out) == [r.st.buffer] && |r.st.buffer| == GridCells &&
                r.st.shown == Project(host, r.st.buffer, FixedCenter, SkipMissing))
    ensures Report(AllFinished) !in r.out
  {
    match line
    case None => Outcome(st, [])
    case Some(data) =>
      if data == MeasureDone then FinishMeasure(host, st) else ReceiveData(host, st, data)
  }

  /** The second motor read of a tick: only "reset done" does anything, and only to the status. */
  function ResetPhase(line: Option<string>): (out: seq<Effect>)
    ensures Report(AllFinished) in out <==> line == Some(ResetDone)
    ensures SentOn(out, Motor) == [] && SentOn(out, Sensor) == [] && Scheduled(out) == [] && Displays(out) == []
  {
    if line == Some(ResetDone) then
      FiltersOne(Report(AllFinished));
      [Report(AllFinished)]
    else []
  }

  lemma MotorReadCounts(host: Host, st: State, m: Option<string>, d: Option<string>, moved: Outcome, sensed: Outcome)
    requires moved == MotorPhase(st, m) && sensed == SensorPhase(host, moved.st, d)
    ensures m == Some(StepAck) && st.motorActive ==> sensed.st.c == st.c + 1
    ensures !(m == Some(StepAck) && st.motorActive) ==> sensed.st.c == st.c
    ensures m == Some(Abort) ==> !sensed.st.motorActive
    ensures Scheduled(moved.out + sensed.out) ==
      if m == Some(StepAck) && st.motorActive && st.c + 1 < st.s then [Schedule(3000, SendStep)] else []
    ensures SentOn(moved.out + sensed.out, Sensor) ==
      if m == Some(StepAck) && st.motorActive && st.c + 1 >= st.s then [StartMeasure] else []
    ensures Report(AllFinished) !in moved.out + sensed.out
    ensures sensed.st.s == st.s && sensed.st.sc == st.sc
    ensures sensed.st.motorActive == (st.motorActive && m != Some(Abort) && !(m == Some(StepAck) && st.c + 1 >= st.s))
    ensures d != Some(MeasureDone) ==>
      sensed.st.measureActive == (st.measureActive || (m == Some(StepAck) && st.motorActive && st.c + 1 >= st.s))
  {
    FiltersAppend(moved.out, sensed.out);
  }

  lemma SensorReadShows(host: Host, st: State, m: Option<string>, d: Option<string>, moved: Outcome, sensed: Outcome)
    requires moved == MotorPhase(st, m) && sensed == SensorPhase(host, moved.st, d)
    ensures d.Some? && d.value != MeasureDone && Decode(host, d.value).Some? ==>
      var g := Decode(host, d.value).value;
      sensed.st.buffer == g && sensed.st.shown == Project(host, g, FixedCenter, SkipMissing) &&
      Displays(moved.out + sensed.out) == [g]
    ensures d.None? || (d.value != MeasureDone && Decode(host, d.value).None?) ==>
      && sensed.st.shown == st.shown && Displays(moved.out + sensed.out) == [] && SentOn(moved.out + sensed.out, Motor) == []
      && sensed.st.buffer == (if m == Some(StepAck) && st.motorActive && st.c + 1 >= st.s then [] else st.buffer)
  {
    FiltersAppend(moved.out, sensed.out);
    MotorKeepsBuffer(st, m);
    if d.None? {
      assert sensed == Outcome(moved.st, []);
    } else if d.value != MeasureDone {
      assert sensed == ReceiveData(host, moved.st, d.value);
    }
  }

  lemma SensorReadFinishes(host: Host, st: State, m: Option<string>, d: Option<string>, moved: Outcome, sensed: Outcome)
    requires moved == MotorPhase(st, m) && sensed == SensorPhase(host, moved.st, d)
    requires d == Some(MeasureDone)
    ensures !sensed.st.measureActive && SentOn(moved.out + sensed.out, Motor) == [ResetAngle]
    ensures sensed.st.buffer == (if m == Some(StepAck) && st.motorActive && st.c + 1 >= st.s then [] else st.buffer)
    ensures |sensed.st.buffer| == GridCells ==>
      Displays(moved.out + sensed.out) == [sensed.st.buffer] &&
      sensed.st.shown == Project(host, sensed.st.buffer, FixedCenter, SkipMissing)
    ensures |sensed.st.buffer| != GridCells ==> Displays(moved.out + sensed.out) == [] && sensed.st.shown == st.shown
  {
    FiltersAppend(moved.out, sensed.out);
    assert sensed == FinishMeasure(host, moved.st);
    MotorKeepsBuffer(st, m);
  }

  /** Only the last counted "MF" touches the buffer, emptying it. */
  lemma MotorKeepsBuffer(st: State, m: Option<string>)
    ensures MotorPhase(st, m).st.buffer == if m == Some(StepAck) && st.motorActive && st.c + 1 >= st.s then [] else st.buffer
  {
  }

  datatype TickOutcome = TickOutcome(st: State, motor: Feed, sensor: Feed, out: seq<Effect>)

  /**
   * One timer tick: a motor read, a sensor read acting on the state the motor
   * read left, then a second motor read. The process is reported finished
   * exactly when the second motor read is "reset done"; TickMoves and
   * TickSenses state the rest.
   */
  function Tick(host: Host, st: State, motor: Feed, sensor: Feed): (r: TickOutcome)
    ensures r.motor == ReadLine(ReadLine(motor).rest).rest && r.sensor == ReadLine(sensor).rest
    ensures Report(AllFinished) in r.out <==> ReadLine(ReadLine(motor).rest).line == Some(ResetDone)
  {
    var first := ReadLine(motor);
    var read := ReadLine(sensor);
    var moved := MotorPhase(st, first.line);
    var sensed := SensorPhase(host, moved.st, read.line);
    var second := ReadLine(first.rest);
    TickOutcome(sensed.st, second.rest, read.rest, moved.out + sensed.out + ResetPhase(second.line))
  }

  /**
   * What a tick's motor reads do: a counted "MF" advances C and either
   * schedules the next step command in 3000 ms or, after the last step, sends
   * the measurement start, stopping the motor and starting measuring whatever
   * the sensor read returns; "RF" stops the motor; nothing else touches C, and
   * no read changes S or SC.
   */
  lemma TickMoves(host: Host, st: State, motor: Feed, sensor: Feed)
    ensures var m := ReadLine(motor).line; var r := Tick(host, st, motor, sensor);
      && (m == Some(StepAck) && st.motorActive ==> r.st.c == st.c + 1)
      && (!(m == Some(StepAck) && st.motorActive) ==> r.st.c == st.c)
      && (m == Some(Abort) ==> !r.st.motorActive)
    ensures var m := ReadLine(motor).line; var d := ReadLine(sensor).line; var r := Tick(host, st, motor, sensor);
      && r.st.s == st.s && r.st.sc == st.sc
      && r.st.motorActive == (st.motorActive && m != Some(Abort) && !(m == Some(StepAck) && st.c + 1 >= st.s))
      && (d != Some(MeasureDone) ==>
            r.st.measureActive == (st.measureActive || (m == Some(StepAck) && st.motorActive && st.c + 1 >= st.s)))
    ensures var m := ReadLine(motor).line; var r := Tick(host, st, motor, sensor);
      && Scheduled(r.out) == (if m == Some(StepAck) && st.motorActive && st.c + 1 < st.s then [Schedule(3000, SendStep)] else [])
      && SentOn(r.out, Sensor) == (if m == Some(StepAck) && st.motorActive && st.c + 1 >= st.s then [StartMeasure] else [])
  {
    var m, d := ReadLine(motor).line, ReadLine(sensor).line;
    var moved := MotorPhase(st, m);
    var sensed := SensorPhase(host, moved.st, d);
    var finish := ResetPhase(ReadLine(ReadLine(motor).rest).line);
    MotorReadCounts(host, st, m, d, moved, sensed);
    FiltersAppend(moved.out + sensed.out, finish);
  }

  /**
   * What a tick's sensor read does, on the state the motor read left: a
   * 64-field line becomes the buffer and the plot; "measure done" resets the
   * angle, clears measuring and replots the buffer only when it is complete;
   * anything else changes neither the plot, the buffer the motor read left,
   * nor the motor link.
   */
  lemma TickSenses(host: Host, st: State, motor: Feed, sensor: Feed)
    ensures var d := ReadLine(sensor).line; var r := Tick(host, st, motor, sensor);
      d.Some? && d.value != MeasureDone && Decode(host, d.value).Some? ==>
        var g := Decode(host, d.value).value;
        r.st.buffer == g && r.st.shown == Project(host, g, FixedCenter, SkipMissing) && Displays(r.out) == [g]
    ensures var m := ReadLine(motor).line; var d := ReadLine(sensor).line; var r := Tick(host, st, motor, sensor);
      d.None? || (d.value != MeasureDone && Decode(host, d.value).None?) ==>
        && r.st.shown == st.shown && Displays(r.out) == [] && SentOn(r.out, Motor) == []
        && r.st.buffer == (if m == Some(StepAck) && st.motorActive && st.c + 1 >= st.s then [] else st.buffer)
    ensures var m := ReadLine(motor).line; var d := ReadLine(sensor).line; var r := Tick(host, st, motor, sensor);
      d == Some(MeasureDone) ==>
        && !r.st.measureActive && SentOn(r.out, Motor) == [ResetAngle]
        && r.st.buffer == (if m == Some(StepAck) && st.motorActive && st.c + 1 >= st.s then [] else st.buffer)
        && (|r.st.buffer| == GridCells ==>
              Displays(r.out) == [r.st.buffer] && r.st.shown == Project(host, r.st.buffer, FixedCenter, SkipMissing))
        && (|r.st.buffer| != GridCells ==> Displays(r.out) == [] && r.st.shown == st.shown)
  {
    var m, d := ReadLine(motor).line, ReadLine(sensor).line;
    var moved := MotorPhase(st, m);
    var sensed := SensorPhase(host, moved.st, d);
    var finish := ResetPhase(ReadLine(ReadLine(motor).rest).line);
    SensorReadShows(host, st, m, d, moved, sensed);
    if d == Some(MeasureDone) {
      SensorReadFinishes(host, st, m, d, moved, sensed);
    }
    FiltersAppend(moved.out + sensed.out, finish);
  }

  /** "reset done" on a tick's first motor read is dropped: the tick is its sensor read and its second motor read. */
  lemma TickDropsEarlyReset(host: Host, st: State, motor: Feed, sensor: Feed)
    requires ReadLine(motor).line == Some(ResetDone)
    ensures var r := Tick(host, st, motor, sensor);
      var sensed := SensorPhase(host, st, ReadLine(sensor).line);
      r.st == sensed.st && r.out == sensed.out + ResetPhase(ReadLine(ReadLine(motor).rest).line)
  {
    var moved := MotorPhase(st, ReadLine(motor).line);
    assert moved.out == [] && moved.st == st;
    assert moved.out + SensorPhase(host, st, ReadLine(sensor).line).out == SensorPhase(host, st, ReadLine(sensor).line).out;
  }

  // ---------------------------------------------------------------------------
  // Runs: the controller together with what its two links will return.

  datatype Event = Begin(parsed: Option<SampleCount>) | Timer | Poll | Arrive(link: LinkId, read: Option<string>)

  datatype World = World(st: State, motor: Feed, sensor: Feed)


  function Step(host: Host, w: World, e: Event): Trace<World>
  {
    match e
    case Begin(parsed) =>
      var o := Start(host, w.st, parsed);
      Trace(w.(st := o.st), o.out)
    case Timer =>
      var o := SendStepCommand(host, w.st);
      Trace(w.(st := o.st), o.out)
    case Poll =>
      var t := Tick(host, w.st, w.motor, w.sensor);
      Trace(World(t.st, t.motor, t.sensor), t.out)
    case Arrive(link, read) =>
      if link == Motor then Trace(w.(motor := w.motor + [read]), [])
      else Trace(w.(sensor := w.sensor + [read]), [])
  }

  function Steps(host: Host): (World, Event) -> Trace<World>
  {
    (w, e) => Step(host, w, e)
  }

  /**
   * How the window is wired: an arriving line only joins its link's buffer,
   * a timer tick reads the motor link twice and the sensor link once, and the
   * button and the deferred step command read neither.
   */
  lemma StepWiring(host: Host, w: World, e: Event)
    ensures var t := Step(host, w, e);
      && (e.Arrive? && e.link == Motor ==> t.w == w.(motor := w.motor + [e.read]) && t.out == [])
      && (e.Arrive? && e.link == Sensor ==> t.w == w.(sensor := w.sensor + [e.read]) && t.out == [])
      && (e.Poll? ==> t.w.motor == ReadLine(ReadLine(w.motor).rest).rest && t.w.sensor == ReadLine(w.sensor).rest)
      && (e.Begin? || e.Timer? ==> t.w.motor == w.motor && t.w.sensor == w.sensor)
  {
  }

  // ---------------------------------------------------------------------------
  // The sweep.

  /** One step: the acknowledgement arrives, a tick reads it, the deferred step command fires. */
  function Round(): seq<Event>
  {
    [Arrive(Motor, Some(StepAck)), Poll, Timer]
  }

  function Rounds(n: nat): seq<Event>
  {
    if n == 0 then [] else Round() + Rounds(n - 1)
  }

  /** START, then S acknowledgements, each deferred step command firing before the next. */
  function Sweep(s: int): seq<Event>
    requires s >= 1
  {
    [Begin(Some(s))] + Rounds(s - 1) + [Arrive(Motor, Some(StepAck)), Poll]
  }

  /** A tick that reads a counted "MF" with steps left, and nothing else. */
  lemma TickOnAck(host: Host, st: State)
    requires st.motorActive && st.c + 1 < st.s
    ensures Tick(host, st, [Some(StepAck)], []) == TickOutcome(st.(c := st.c + 1), [], [], [Schedule(3000, SendStep)])
  {
    var moved := MotorPhase(st, Some(StepAck));
    assert moved == Outcome(st.(c := st.c + 1), [Schedule(3000, SendStep)]);
    assert SensorPhase(host, moved.st, None) == Outcome(moved.st, []);
    assert ResetPhase(None) == [];
  }

  /** A tick that reads the last "MF" of the sweep, and nothing else. */
  lemma TickOnLastAck(host: Host, st: State)
    requires st.motorActive && st.c + 1 == st.s
    ensures Tick(host, st, [Some(StepAck)], []) ==
      TickOutcome(st.(c := st.s, motorActive := false, buffer := [], measureActive := true), [], [], [Send(Sensor, StartMeasure)])
  {
    var moved := MotorPhase(st, Some(StepAck));
    assert moved.st == st.(c := st.s, motorActive := false, buffer := [], measureActive := true);
    assert moved.out == [Send(Sensor, StartMeasure)];
    assert SensorPhase(host, moved.st, None) == Outcome(moved.st, []);
    assert ResetPhase(None) == [];
  }

  lemma ArriveStep(host: Host, st: State, link: LinkId, line: Option<string>)
    ensures Steps(host)(World(st, [], []), Arrive(link, line)) ==
      Trace(if link == Motor then World(st, [line], []) else World(st, [], [line]), [])
  {
    assert [] + [line] == [line];
  }

  lemma AckPoll(host: Host, st: State)
    requires st.motorActive && st.c + 1 < st.s
    ensures Steps(host)(World(st, [Some(StepAck)], []), Poll) ==
      Trace(World(st.(c := st.c + 1), [], []), [Schedule(3000, SendStep)])
  {
    TickOnAck(host, st);
  }

  lemma LastAckPoll(host: Host, st: State)
    requires st.motorActive && st.c + 1 == st.s
    ensures Steps(host)(World(st, [Some(StepAck)], []), Poll) ==
      Trace(World(st.(c := st.s, motorActive := false, buffer := [], measureActive := true), [], []), [Send(Sensor, StartMeasure)])
  {
    TickOnLastAck(host, st);
  }

  lemma TimerStep(host: Host, w: World)
    ensures Steps(host)(w, Timer) == Trace(w, [Send(Motor, StepMessage(host, w.st.sc))])
  {
  }

  /** One round from an active motor with a step left. */
  lemma RoundAdvances(host: Host, st: State)
    requires st.motorActive && st.c + 1 < st.s
    ensures Run(Steps(host), World(st, [], []), Round()) ==
      Trace(World(st.(c := st.c + 1), [], []), [Schedule(3000, SendStep), Send(Motor, StepMessage(host, st.sc))])
  {
    var w2 := World(st.(c := st.c + 1), [], []);
    var t1 := Trace(World(st, [Some(StepAck)], []), []);
    var t2 := Trace(w2, [Schedule(3000, SendStep)]);
    var t3 := Trace(w2, [Send(Motor, StepMessage(host, st.sc))]);
    ArriveStep(host, st, Motor, Some(StepAck));
    AckPoll(host, st);
    TimerStep(host, w2);
    RunThree(Steps(host), World(st, [], []), Arrive(Motor, Some(StepAck)), Poll, Timer, t1, t2, t3);
    assert t1.out + (t2.out + t3.out) == [Schedule(3000, SendStep), Send(Motor, StepMessage(host, st.sc))];
  }

  lemma RoundFilters(host: Host, sc: real)
    ensures var out := [Schedule(3000, SendStep), Send(Motor, StepMessage(host, sc))];
      && SentOn(out, Motor) == [StepMessage(host, sc)] && SentOn(out, Sensor) == []
      && Scheduled(out) == [Schedule(3000, SendStep)]
  {
    FiltersOne(Schedule(3000, SendStep));
    FiltersOne(Send(Motor, StepMessage(host, sc)));
    FiltersAppend([Schedule(3000, SendStep)], [Send(Motor, StepMessage(host, sc))]);
    assert [Schedule(3000, SendStep), Send(Motor, StepMessage(host, sc))] ==
      [Schedule(3000, SendStep)] + [Send(Motor, StepMessage(host, sc))];
  }

  /** After n rounds from `st`: C advanced by n, n step commands sent, n deferred, nothing pending. */
  predicate Advanced(host: Host, st: State, n: nat, t: Trace<World>)
  {
    && t.w == World(st.(c := st.c + n), [], [])
    && SentOn(t.out, Motor) == Copies(StepMessage(host, st.sc), n)
    && SentOn(t.out, Sensor) == []
    && |Scheduled(t.out)| == n
  }

  lemma AdvancedCons(host: Host, st: State, n: nat, r1: Trace<World>, r2: Trace<World>)
    requires n >= 1
    requires r1.w == World(st.(c := st.c + 1), [], [])
    requires r1.out == [Schedule(3000, SendStep), Send(Motor, StepMessage(host, st.sc))]
    requires Advanced(host, r1.w.st, n - 1, r2)
    ensures Advanced(host, st, n, Trace(r2.w, r1.out + r2.out))
  {
    RoundFilters(host, st.sc);
    FiltersAppend(r1.out, r2.out);
    assert Copies(StepMessage(host, st.sc), n) == [StepMessage(host, st.sc)] + Copies(StepMessage(host, st.sc), n - 1);
  }

  /** `step` runs every round from an active motor with a step left as the controller does. */
  ghost predicate RoundsAsController(step: (World, Event) -> Trace<World>, host: Host)
  {
    forall st: State :: st.motorActive && st.c + 1 < st.s ==>
      Run(step, World(st, [], []), Round()) ==
      Trace(World(st.(c := st.c + 1), [], []), [Schedule(3000, SendStep), Send(Motor, StepMessage(host, st.sc))])
  }

  lemma {:induction false} RoundsAdvanceBy(step: (World, Event) -> Trace<World>, host: Host, st: State, n: nat)
    requires RoundsAsController(step, host)
    requires st.motorActive && st.c + n < st.s
    ensures Advanced(host, st, n, Run(step, World(st, [], []), Rounds(n)))
    decreases n
  {
    var w := World(st, [], []);
    if n == 0 {
      assert Rounds(0) == [];
      assert st.(c := st.c + 0) == st;
    } else {
      var r1 := Run(step, w, Round());
      var r2 := Run(step, r1.w, Rounds(n - 1));
      assert Run(step, w, Rounds(n)) == Trace(r2.w, r1.out + r2.out) by {
        assert Rounds(n) == Round() + Rounds(n - 1);
        RunAppend(step, w, Round(), Rounds(n - 1));
      }
      RoundsAdvanceBy(step, host, st.(c := st.c + 1), n - 1);
      AdvancedCons(host, st, n, r1, r2);
    }
  }

  lemma RoundsAdvance(host: Host, st: State, n: nat)
    requires st.motorActive && st.c + n < st.s
    ensures Advanced(host, st, n, Run(Steps(host), World(st, [], []), Rounds(n)))
  {
    forall st': State | st'.motorActive && st'.c + 1 < st'.s
      ensures Run(Steps(host), World(st', [], []), Round()) ==
        Trace(World(st'.(c := st'.c + 1), [], []), [Schedule(3000, SendStep), Send(Motor, StepMessage(host, st'.sc))])
    {
      RoundAdvances(host, st');
    }
    RoundsAdvanceBy(Steps(host), host, st, n);
  }

  /** START from any state, with nothing pending on the links. */
  lemma BeginStarts(host: Host, st: State, s: int)
    requires s != 0
    ensures var t := Run(Steps(host), World(st, [], []), [Begin(Some(s))]);
      && t.w == World(st.(s := s, c := 0, sc := StepAngle(s), motorActive := true, measureActive := false), [], [])
      && SentOn(t.out, Motor) == [StepMessage(host, StepAngle(s))]
      && SentOn(t.out, Sensor) == [] && Scheduled(t.out) == []
  {
    RunOne(Steps(host), World(st, [], []), Begin(Some(s)));
  }

  /** The last acknowledgement of a sweep, read by a tick. */
  lemma LastRound(host: Host, st: State)
    requires st.motorActive && st.c + 1 == st.s
    ensures Run(Steps(host), World(st, [], []), [Arrive(Motor, Some(StepAck)), Poll]) ==
      Trace(World(st.(c := st.s, motorActive := false, buffer := [], measureActive := true), [], []),
            [Send(Sensor, StartMeasure)])
    ensures SentOn([Send(Sensor, StartMeasure)], Sensor) == [StartMeasure]
    ensures SentOn([Send(Sensor, StartMeasure)], Motor) == [] && Scheduled([Send(Sensor, StartMeasure)]) == []
  {
    var t1 := Trace(World(st, [Some(StepAck)], []), []);
    var t2 := Trace(World(st.(c := st.s, motorActive := false, buffer := [], measureActive := true), [], []),
                    [Send(Sensor, StartMeasure)]);
    ArriveStep(host, st, Motor, Some(StepAck));
    LastAckPoll(host, st);
    RunTwo(Steps(host), World(st, [], []), Arrive(Motor, Some(StepAck)), Poll, t1, t2);
    assert t1.out + t2.out == t2.out;
    FiltersOne(Send(Sensor, StartMeasure));
  }

  /** START and the S - 1 rounds before the last acknowledgement. */
  lemma StartedAdvances(host: Host, st: State, s: int)
    requires s >= 1
    ensures var t := Run(Steps(host), World(st, [], []), [Begin(Some(s))] + Rounds(s - 1));
      && t.w == World(st.(s := s, c := s - 1, sc := StepAngle(s), motorActive := true, measureActive := false), [], [])
      && SentOn(t.out, Motor) == Copies(StepMessage(host, StepAngle(s)), s)
      && SentOn(t.out, Sensor) == [] && |Scheduled(t.out)| == s - 1
  {
    var msg := StepMessage(host, StepAngle(s));
    var w := World(st, [], []);
    var started := st.(s := s, c := 0, sc := StepAngle(s), motorActive := true, measureActive := false);
    var ra := Run(Steps(host), w, [Begin(Some(s))]);
    var rb := Run(Steps(host), ra.w, Rounds(s - 1));
    assert ra.w == World(started, [], []) && SentOn(ra.out, Motor) == [msg] by {
      BeginStarts(host, st, s);
    }
    assert SentOn(ra.out, Sensor) == [] && Scheduled(ra.out) == [] by {
      BeginStarts(host, st, s);
    }
    assert Advanced(host, started, s - 1, rb) by {
      RoundsAdvance(host, started, s - 1);
    }
    RunAppend(Steps(host), w, [Begin(Some(s))], Rounds(s - 1));
    FiltersAppend(ra.out, rb.out);
    CopiesAppend(msg, 1, s - 1);
  }

  /**
   * A full sweep of S >= 1 steps: exactly S step commands on the motor link,
   * then exactly one measurement start on the sensor link; the motor is
   * stopped with C == S, measuring is active and the buffer is empty.
   */
  lemma SweepStartsMeasuring(host: Host, st: State, s: int)
    requires s >= 1
    ensures var t := Run(Steps(host), World(st, [], []), Sweep(s));
      && t.w.st == st.(s := s, c := s, sc := StepAngle(s), motorActive := false, measureActive := true, buffer := [])
      && SentOn(t.out, Motor) == Copies(StepMessage(host, StepAngle(s)), s)
      && SentOn(t.out, Sensor) == [StartMeasure]
      && |Scheduled(t.out)| == s - 1
  {
    StartedAdvances(host, st, s);
    LastRound(host, st.(s := s, c := s - 1, sc := StepAngle(s), motorActive := true, measureActive := false));
    SweepEndsBy(Steps(host), host, st, s);
  }

  /** The sweep's totals from those of its prefix and of its last acknowledgement, for any step function. */
  lemma SweepEndsBy(step: (World, Event) -> Trace<World>, host: Host, st: State, s: int)
    requires s >= 1
    requires var t := Run(step, World(st, [], []), [Begin(Some(s))] + Rounds(s - 1));
      && t.w == World(st.(s := s, c := s - 1, sc := StepAngle(s), motorActive := true, measureActive := false), [], [])
      && SentOn(t.out, Motor) == Copies(StepMessage(host, StepAngle(s)), s)
      && SentOn(t.out, Sensor) == [] && |Scheduled(t.out)| == s - 1
    requires var last := st.(s := s, c := s - 1, sc := StepAngle(s), motorActive := true, measureActive := false);
      Run(step, World(last, [], []), [Arrive(Motor, Some(StepAck)), Poll]) ==
      Trace(World(last.(c := s, motorActive := false, buffer := [], measureActive := true), [], []), [Send(Sensor, StartMeasure)])
    ensures var t := Run(step, World(st, [], []), Sweep(s));
      && t.w.st == st.(s := s, c := s, sc := StepAngle(s), motorActive := false, measureActive := true, buffer := [])
      && SentOn(t.out, Motor) == Copies(StepMessage(host, StepAngle(s)), s)
      && SentOn(t.out, Sensor) == [StartMeasure]
      && |Scheduled(t.out)| == s - 1
  {
    var w := World(st, [], []);
    var ab := [Begin(Some(s))] + Rounds(s - 1);
    var c := [Arrive(Motor, Some(StepAck)), Poll];
    var rab := Run(step, w, ab);
    var rc := Run(step, rab.w, c);
    assert Sweep(s) == ab + c;
    RunAppend(step, w, ab, c);
    FiltersOne(Send(Sensor, StartMeasure));
    FiltersAppend(rab.out, rc.out);
  }

  // ---------------------------------------------------------------------------
  // "RF" stops the count but not a step already scheduled.

  /** Once the motor is inactive, no run without START changes C or reactivates the motor. */
  lemma {:induction false} InactiveMotorHoldsCount(host: Host, w: World, events: seq<Event>)
    requires forall k :: 0 <= k < |events| ==> !events[k].Begin?
    requires !w.st.motorActive
    ensures Run(Steps(host), w, events).w.st.c == w.st.c
    ensures !Run(Steps(host), w, events).w.st.motorActive
    decreases |events|
  {
    if events != [] {
      var first := Step(host, w, events[0]);
      assert first.w.st.c == w.st.c && !first.w.st.motorActive;
      InactiveMotorHoldsCount(host, first.w, events[1..]);
    }
  }

  /** Before START the motor is idle and no step is counted, whatever the links deliver. */
  lemma IdleBeforeStart(host: Host, motor: Feed, sensor: Feed, events: seq<Event>)
    requires forall k :: 0 <= k < |events| ==> !events[k].Begin?
    ensures var t := Run(Steps(host), World(Initial, motor, sensor), events);
      t.w.st.c == 0 && !t.w.st.motorActive
  {
    InactiveMotorHoldsCount(host, World(Initial, motor, sensor), events);
  }

  /**
   * "RF" read while a step command is pending: the motor stops, and the
   * pending command still goes out when its timer fires.
   */
  lemma AbortKeepsPendingStep(host: Host, st: State)
    ensures var t := Run(Steps(host), World(st, [], []), [Arrive(Motor, Some(Abort)), Poll, Timer]);
      && !t.w.st.motorActive && t.w.st.c == st.c
      && SentOn(t.out, Motor) == [StepMessage(host, st.sc)]
  {
    var stopped := st.(motorActive := false);
    var t1 := Trace(World(st, [Some(Abort)], []), []);
    var t2 := Trace(World(stopped, [], []), []);
    var t3 := Trace(World(stopped, [], []), [Send(Motor, StepMessage(host, st.sc))]);
    ArriveStep(host, st, Motor, Some(Abort));
    AbortPoll(host, st);
    TimerStep(host, t2.w);
    RunThree(Steps(host), World(st, [], []), Arrive(Motor, Some(Abort)), Poll, Timer, t1, t2, t3);
    assert t1.out + (t2.out + t3.out) == t3.out;
    FiltersOne(Send(Motor, StepMessage(host, st.sc)));
  }

  /** A tick that reads "RF" and nothing else stops the motor and emits nothing. */
  lemma AbortPoll(host: Host, st: State)
    ensures Steps(host)(World(st, [Some(Abort)], []), Poll) == Trace(World(st.(motorActive := false), [], []), [])
  {
    var moved := MotorPhase(st, Some(Abort));
    assert SensorPhase(host, moved.st, None) == Outcome(moved.st, []);
    assert ResetPhase(None) == [];
  }

  // ---------------------------------------------------------------------------
  // The viewer never accumulates.

  /** One event displays at most one grid, and then shows exactly its points. */
  lemma StepShows(host: Host, w: World, e: Event)
    ensures var t := Step(host, w, e);
      || (Displays(t.out) == [] && t.w.st.shown == w.st.shown)
      || (Displays(t.out) == [t.w.st.buffer] && |t.w.st.buffer| == GridCells &&
          t.w.st.shown == Project(host, t.w.st.buffer, FixedCenter, SkipMissing))
  {
    if e.Poll? {
      var first := ReadLine(w.motor);
      var moved := MotorPhase(w.st, first.line);
      var sensed := SensorPhase(host, moved.st, ReadLine(w.sensor).line);
      var finish := ResetPhase(ReadLine(first.rest).line);
      FiltersAppend(moved.out, sensed.out);
      FiltersAppend(moved.out + sensed.out, finish);
    }
  }

  /**
   * After any run the viewer shows exactly the points of the last grid
   * displayed, dropping only missing cells and centred on azimuth 0, or what
   * it showed before if nothing was displayed.
   */
  lemma {:induction false} ShowsLastGrid(host: Host, w: World, events: seq<Event>)
    ensures var t := Run(Steps(host), w, events);
      && (forall k :: 0 <= k < |Displays(t.out)| ==> |Displays(t.out)[k]| == GridCells)
      && t.w.st.shown == (if Displays(t.out) == [] then w.st.shown
                          else Project(host, Displays(t.out)[|Displays(t.out)| - 1], FixedCenter, SkipMissing))
    decreases |events|
  {
    if events != [] {
      var first := Step(host, w, events[0]);
      var rest := Run(Steps(host), first.w, events[1..]);
      StepShows(host, w, events[0]);
      ShowsLastGrid(host, first.w, events[1..]);
      FiltersAppend(first.out, rest.out);
      assert Run(Steps(host), w, events) == Trace(rest.w, first.out + rest.out);
    }
  }
}

=== FILE: wrappers.dfy ===
/** Optional values: a missing reading, a read that returned nothing, an input that did not parse. */
module Wrappers {

  datatype Option<+T> = None | Some(value: T)
}
